=== FILE: README.md ===
# acp: add, commit, push — a Dafny model

This project models `acp`, the command-line Git helper in `src/git/acp/run.ts`. It parses a few options, then runs a fixed sequence of git commands:

1. an optional diff review with a confirmation prompt;
2. an optional new branch;
3. `git add .` and `git commit`;
4. an optional squash and an optional interactive rebase;
5. a confirmed push with a bounded retry loop;
6. an optional tag.

A `-n` flag turns every command issued through `executeCommand` into a logged "Dry-run:" line; `git diff` (with `-d`) still runs. The project also models two other pieces:

- the shell classifier `detectShellAndConfig` of `src/common/shell_detect.ts`, which runs when the script is loaded;
- the default configuration record of `src/git/acp/config.ts`.

## How the model works

Everything outside the program is an input. `AcpRun.World` holds three things:

- whether the k-th spawned process exits with status zero;
- the operator's answers to the prompts, in order;
- the text `git diff` prints.

A run is a pure function from the arguments, the configuration and the world. It produces a trace of events and an exit status:

- an executed or simulated command;
- a diff read;
- a logged line;
- a prompt with its answer.

Each git command issued through `executeCommand` is a constructor of `Events.GitCommand`, and `Events.Line` gives the exact shell string the source builds for it. `git diff` is not one of them: `showDiff` spawns it directly, so it appears in a trace as a diff read, in dry-run mode too.

### Modules

| module | file | contents |
|---|---|---|
| `Wrappers` | wrappers.dfy | `Option` and `Result` |
| `Strings` | strings.dfy | suffix test, ASCII lower-casing, decimal rendering of integers |
| `AcpConfig` | config.dfy | the `Config` record and `loadConfig` |
| `ShellDetect` | shell_detect.dfy | `detectShellAndConfig` as a pure classifier of `SHELL` and the home directory |
| `Events` | events.dfy | commands, their shell strings, trace events, and the command and log-line views of a trace |
| `Executor` | executor.dfy | `executeCommand`, `confirmAction`, `performGitPush` |
| `CommandLine` | arguments.dfy | `parseArguments`, plus a reference description of well-formed command lines |
| `AcpRun` | run.dfy | `main` step by step, `performPush`, and the script with its module-load shell check; `performCommit` is the pair of `Step`s for `Add` and `Commit` inside `BeforePush` |
| `RunProofs` | run_proofs.dfy | lemmas about whole runs |

### Behaviour the model follows as written

- **The tag step does not depend on the push.** Tagging runs whenever a tag name was given and the push prompt was answered. That includes a declined push and one whose retries all failed (`src/git/acp/run.ts:185-189`).
- **The diff bypasses dry run.** `showDiff` calls `execSync('git diff')` itself rather than going through `executeCommand` (`src/git/acp/run.ts:50-52`, `165`). With `-d -n` the diff is still spawned, and its failure still aborts the run with status 1; only the commands after it are simulated.
- **A push that exhausts its retries is not fatal.** It is only logged, and the run still logs "Operation completed successfully." and exits 0 (`src/git/acp/run.ts:83-89`).
- **Configuration is an input.** `main` reads its settings from the JSON loader of `src/git/acp/config/config.ts`, not from the default record in `src/git/acp/config.ts`. The record is modelled separately, and the retry lemma uses it as a concrete instance.
- **A prompt with no answer left** models the case where standard input ends before the question is answered. The readline callback never fires, nothing else is pending, and Node exits with status 0. The trace then ends with the unanswered prompt.
- **The error report carries no details.** `handleError` passes the error's message and its stack as second arguments to the logger (`src/common/common.ts:16-25`). The logger's `simple` format has no `splat` step (`src/common/logging.ts:3-9`), and winston 3 keeps a string second argument only for `splat`. So a failing command logs exactly "An error occurred:" and then "Stack trace:", and the failed command line appears nowhere in the log.
- **A value option as the last token** reads `args[++i]` past the end, which gives `undefined`. That clears any value set by an earlier occurrence of the option.

## Model

| member | source | states |
|---|---|---|
| AcpConfig.LoadConfig | src/git/acp/config.ts:9-18 | the default record: 3 retry attempts (positive), commit message "Auto Commit", branch "main", verbose and dry run both off |
| Events.Line | src/git/acp/run.ts:13-48 | the command string of each helper. No contract of its own; its behaviour is stated by `Events.LineShape` and `Events.LineIdentifiesCommand` |
| Events.LineShape | src/git/acp/run.ts:13-48 | every command line the helpers build is a git invocation, and the two letters after "git " tell the helpers apart (checkout, add, commit, rebase, push, tag) |
| Events.LineIdentifiesCommand | src/git/acp/run.ts:13-48 | two commands have the same command line iff they are the same command, so each logged "Dry-run: " line names exactly one command |
| ShellDetect.DetectShell | src/common/shell_detect.ts:13-83 | succeeds exactly when `SHELL` (empty when unset) ends in "/" followed by a supported name; otherwise fails with "Unsupported or unknown shell: " and the value; on success the shell is a supported name ending the path, the config directory is home/.config/shell, and the rc and profile files are those listed for each shell: .bashrc/.bash_profile, .zshrc/.zprofile, config.fish in the config directory for both, .kshrc/.profile, .tcshrc/.login, .cshrc/.login, and .profile for both with ash and dash |
| ShellDetect.DetectIsOrderIndependent | src/common/shell_detect.ts:19-83 | if a supported name ends the path after a slash, detection succeeds with that very name, so the first-match order of the tests (csh after tcsh, dash after ash) never changes the answer |
| ShellDetect.DetectByLastSegment | src/common/shell_detect.ts:19-83 | for dir/segment with a slash-free segment, detection succeeds iff the segment is a supported name, and then reports that segment |
| ShellDetect.SlashlessShellIsUnsupported | src/common/shell_detect.ts:15-82 | an unset, empty or slash-free `SHELL` (such as a bare "bash") is rejected with the unsupported-shell message |
| Executor.ExecuteCommand | src/git/acp/run.ts:55-61 | leaves exactly one event, naming the command; in dry-run mode spawns nothing, returns normally and logs exactly "Dry-run: " plus the command line; otherwise its one event is the executed command carrying the process's outcome, it logs nothing, and it throws exactly when the process fails |
| Executor.ConfirmAction | src/git/acp/run.ts:63-75 | an answer confirms iff it is "y" or "Y" |
| Executor.PushFrom | src/git/acp/run.ts:22-31 | the `for` loop from iteration i on: only push events, at most n - i + 1 pushes, at least one push when it succeeds, nothing spawned in dry run. Its outcome is stated by `Executor.PushFromSucceedsIff`, `Executor.PushFromExhausted` and `Executor.PushFromFirstSuccess` |
| Executor.GitPush | src/git/acp/run.ts:21-32 | makes at most max(retry_attempts, 0) attempts, issuing only `git push` and retry lines; none and no success when the count is not positive; in dry-run mode one simulated push that succeeds |
| Executor.GitPushSucceedsIff | src/git/acp/run.ts:21-32 | the push reports success iff at least one attempt is allowed and either dry run is on or one of the first retry_attempts attempts succeeds |
| Executor.GitPushExhausted | src/git/acp/run.ts:21-32 | when all n attempts fail: exactly n pushes, the retry lines 1/n through n/n in order, and failure |
| Executor.GitPushFirstSuccess | src/git/acp/run.ts:21-32 | when attempt k is the first to succeed: exactly k pushes, retry lines 1/n through (k-1)/n, and success |
| CommandLine.ParseArguments | src/git/acp/run.ts:100-146 | an empty argument list asks for nothing; an early exit is status 0 with the usage line or status 1 with "Unknown option: " and a token of the arguments that is not an option; the retry count, default message and default branch are never changed, and verbose and dry run are never turned off. Its full behaviour on well-formed lists is `CommandLine.ParseEncoded` |
| CommandLine.ParseFrom | src/git/acp/run.ts:101-147 | an early exit is either status 0 with the usage line or status 1 with "Unknown option: " and a token of the input that is not an option; parsing never changes the retry count, default message or default branch, and never turns verbose or dry run off |
| CommandLine.ParseEncoded | src/git/acp/run.ts:101-147 | parsing any well-formed option list gives, for each value option, the last value written (absent if never written), each flag set iff mentioned, and verbose and dry run on iff they were already on or are mentioned |
| CommandLine.ParseStopsAt | src/git/acp/run.ts:137-144 | after any well-formed prefix, an unrecognised token exits 1 with "Unknown option: " and the token, and a help option exits 0 with the usage line, whatever follows |
| CommandLine.DanglingValueOptionClears | src/git/acp/run.ts:105-128 | -m, -b or -t as the last token clears that field, and everything else parses as without it |
| AcpRun.CommitMessage | src/git/acp/run.ts:159 | `parsedArgs.commitMsg || config.default_commit_msg`. No contract of its own; `RunProofs.StepOrder` states that the commit uses the given message when it is non-empty and the configured default otherwise |
| AcpRun.Ask | src/git/acp/run.ts:63-75 | `await confirmAction(question)`, including an input that ends before an answer, which exits with status 0. No contract of its own; its behaviour is stated by `RunProofs.DiffGate` (a declined diff prompt ends with status 0), `RunProofs.BeforePushSucceeds` and `RunProofs.PushStepSucceeds` (an unanswered prompt ends the run with status 0 and no further command) |
| AcpRun.BeforePush | src/git/acp/run.ts:164-183 | the steps before the push prompt: diff review, branch, add, commit, squash, interactive rebase. No contract of its own; its behaviour is stated by `RunProofs.BeforePushSucceeds` (the exact trace when every process succeeds), `RunProofs.DiffGate` and `RunProofs.WorkflowSound` |
| AcpRun.TagStep | src/git/acp/run.ts:187-189 | the tag step, whatever the push did. No contract of its own; its behaviour is stated by `RunProofs.TagNotGatedOnPush` and `RunProofs.TagStepStopsOnlyOnFailure` |
| AcpRun.Finish | src/git/acp/run.ts:191 | the closing success line. No contract of its own; its behaviour is stated by `RunProofs.CompletesAfterPushPrompt` and `RunProofs.WorkflowSound` |
| AcpRun.Workflow | src/git/acp/run.ts:159-191 | the body of `main`'s `try` after parsing. No contract of its own; its behaviour is stated by `RunProofs.WorkflowSound`, `RunProofs.WorkflowExitStatus`, `RunProofs.TagNotGatedOnPush`, `RunProofs.AllSucceedTrace` (the exact trace when every process succeeds), `RunProofs.AllSucceedIssuesExpected`, `RunProofs.StepOrder` and `RunProofs.ExhaustedPushStillCompletes` |
| AcpRun.Step | src/git/acp/run.ts:55-61 | one `executeCommand` inside `main`'s `try`, with the `catch` of lines 192-195: a failing command ends the run with status 1 and the error report. No contract of its own; its behaviour is stated by `RunProofs.StepSucceeds` (a success appends exactly its one command event), `RunProofs.TagStepStopsOnlyOnFailure` and `RunProofs.WorkflowSound` |
| AcpRun.DiffStep | src/git/acp/run.ts:164-169 | `logger.info(showDiff())` and the commit confirmation. No contract of its own; its behaviour is stated by `RunProofs.DiffStepSucceeds` (the exact events of a readable diff), `RunProofs.DiffGate` and `RunProofs.BeforePushSucceeds` |
| AcpRun.PushStep | src/git/acp/run.ts:83-89 | `performPush`. No contract of its own; its behaviour is stated by `RunProofs.PushStepDeclined`, `RunProofs.PushStepPushed`, `RunProofs.PushStepReportsFailure`, `RunProofs.PushStepSucceeds` and `RunProofs.ExhaustedPushStillCompletes` |
| AcpRun.Main | src/git/acp/run.ts:155-196 | `main`: parse, then the workflow. No contract of its own; its behaviour is stated by `RunProofs.MainExitStatus`, `RunProofs.UnknownOptionAbortsBeforeGit`, `RunProofs.HelpExitsBeforeGit` and `RunProofs.DryRunFlagHonoured` |
| AcpRun.Program | src/git/acp/run.ts:9-10 | the script: shell detection at load time, then `main`. No contract of its own; its behaviour is stated by `RunProofs.UnsupportedShellAbortsFirst` |
| RunProofs.WorkflowSound | src/git/acp/run.ts:155-196 | every run of `main` after parsing is either clean with status 0, or has exactly one failure, followed only by the two lines of `handleError`'s report, with status 1 |
| RunProofs.WorkflowExitStatus | src/git/acp/run.ts:155-196 | the run ends with status 0 or 1; status 1 iff some command other than a push attempt, or the diff, failed; such a failure can only be the third-to-last event; with status 1 the run ends with the two lines of the error report |
| RunProofs.MainExitStatus | src/git/acp/run.ts:101-198 | `main` on any argument list ends with status 0 or 1; status 1 iff a command other than a push attempt or the diff failed, or parsing rejected an option; with status 1 the last thing logged is an error |
| RunProofs.TagNotGatedOnPush | src/git/acp/run.ts:183-189 | the tag command is issued iff a tag name was given and the push prompt was answered, whatever the answer or the push outcome |
| RunProofs.TagStepStopsOnlyOnFailure | src/git/acp/run.ts:187-195 | when the tag step ends a run in progress, a tag name was given and its command failed: the trace gains exactly the failed tag command and the error report, the status is 1, and the success line is not added |
| RunProofs.CompletesAfterPushPrompt | src/git/acp/run.ts:185-191 | once the push prompt is answered and no command failed, the run ends with the success line and status 0, even if the push was declined or exhausted |
| RunProofs.DiffGate | src/git/acp/run.ts:164-169 | with -d, a failing `git diff` aborts with status 1 and only the error report, before any other command; a declined confirmation ends with status 0 after showing the diff and the prompt, issuing nothing |
| RunProofs.DryRunSpawnsNoCommand | src/git/acp/run.ts:55-61 | in dry-run mode no git command is ever executed; the diff is the only process spawned |
| RunProofs.DryRunFlagHonoured | src/git/acp/run.ts:133-136 | any well-formed option list in which -n or --dry-run occurs as an option (not as the value of -m, -b or -t) spawns no git command, wherever the flag appears |
| RunProofs.AllSucceedTrace | src/git/acp/run.ts:155-191 | when every process succeeds the run ends with status 0 and its whole trace is the flat reference trace: with -d the diff read, the diff text and the commit prompt (a declined or unanswered one ends there); each pre-push command's one event; the push prompt (an unanswered one ends there); after a yes one push, or only "Failed to push after N attempts" when no attempt is allowed; the tag's event when a tag was given; the success line. No other log line is written |
| RunProofs.AllSucceedIssuesExpected | src/git/acp/run.ts:155-191 | when every process succeeds the run ends with status 0 and issues exactly the expected commands for the given answers, in order |
| RunProofs.StepOrder | src/git/acp/run.ts:159-189 | with an answer for every prompt (two with -d, one without), all of them yes, and every process succeeding the order is branch, add, commit, squash, rebase, push, tag; each optional step appears iff its flag or name is truthy; the message falls back to the configured default |
| RunProofs.DryRunMatchesRealRun | src/git/acp/run.ts:55-61 | a dry run lists exactly the commands a successful real run executes, with the same exit status |
| RunProofs.StepSucceeds | src/git/acp/run.ts:55-61 | a step whose process succeeds appends exactly its command event (executed, or simulated in dry run) and no log line in a live run; the run goes on |
| RunProofs.DiffStepSucceeds | src/git/acp/run.ts:164-169 | a readable diff appends exactly the diff read, the diff text as an info line and the commit prompt; a yes goes on, anything else ends with status 0 and no command |
| RunProofs.BeforePushSucceeds | src/git/acp/run.ts:164-183 | with every process succeeding, a declined or unanswered diff prompt ends the run with status 0 after the diff events; otherwise the trace is the diff events (with -d) followed by exactly one event each for branch, add, commit, squash and rebase, in order |
| RunProofs.PushStepDeclined | src/git/acp/run.ts:83-89 | a declined push prompt adds only the answered prompt: no push and no log line, and the run goes on |
| RunProofs.PushStepPushed | src/git/acp/run.ts:83-89 | a confirmed push that succeeds adds the answered prompt and the retry loop's own events, and no failure line |
| RunProofs.PushStepSucceeds | src/git/acp/run.ts:83-89 | with every process succeeding, the step adds exactly the answered prompt followed by one `git push` after a yes (or only "Failed to push after N attempts" when no attempt is allowed), nothing more after a no, and an unanswered prompt ends the run with status 0 |
| RunProofs.PushStepReportsFailure | src/git/acp/run.ts:83-89 | when the push prompt is answered yes and the retry loop reports failure, the run goes on with the answered prompt, the loop's events and then "Failed to push after N attempts" added to its trace |
| RunProofs.ExhaustedPushStillCompletes | src/git/acp/run.ts:83-191 | in a live run with three attempts allowed, a confirmed push whose attempts all fail logs the retry lines 1/3 to 3/3 and "Failed to push after 3 attempts"; the run then issues the tag when one was given; if that command succeeds, it logs the success line and ends with status 0 |
| RunProofs.UnknownOptionAbortsBeforeGit | src/git/acp/run.ts:141-143 | an unrecognised option ends `main` with status 1 and only its error line: no git command is issued |
| RunProofs.HelpExitsBeforeGit | src/git/acp/run.ts:137-152 | -h or --help ends `main` with status 0 and only the usage line |
| RunProofs.WorkflowTraceNonEmpty | src/git/acp/run.ts:155-196 | every run after parsing leaves at least one event |
| RunProofs.UnsupportedShellAbortsFirst | src/git/acp/run.ts:9-10 | the script ends with status 1 and an empty trace iff `SHELL` is not recognised: shell detection runs before anything is parsed or spawned |
| RunProofs.DefaultPushGivesUpAfterThree | src/git/acp/run.ts:21-32 | with the default configuration, a push that keeps failing is tried exactly three times and logs the retry lines 1/3, 2/3 and 3/3; the failure message is "Failed to push after 3 attempts" |

## Left out

- Process spawning and git itself: `execSync` is a success-or-failure input per spawned process. What git does to the repository is not modelled.
- Shell quoting: command lines are built by plain concatenation, as in the source. How a shell would split a message containing quotes is not modelled.
- The readline interface and promise scheduling: the prompts are a sequence of answers. Output interleaving on the terminal is not modelled.
- The JSON configuration loader (`src/git/acp/config/config.ts`): it is file I/O, so the configuration is a parameter. Only integer retry counts are modelled, not the non-integer or NaN values an unvalidated JSON file could supply.
- Logging: winston's formatting and the log file are not modelled. A logged line is its message text.
- The shell classifier's side effects: creating the config directory and the four "Detected …" log lines are not modelled. `path.join` normalisation is rendered as joining with "/".
- The shell-detection error: it is not caught by the script, so Node prints an uncaught exception and exits with status 1. The model records only the status.
- `verbose`: it is set by -v, but nothing reads it. `default_branch` is never used by `main`.
- BeforePush: the exact trace is stated when every process succeeds. When some command fails, the lemmas state its shape only: a clean prefix, then the one failure, then the error report.
- Workflow: as for BeforePush, the exact trace is stated for runs in which every process succeeds, and for the exhausted push with retry_attempts = 3. Other runs with failures are stated by their shape.
- `Strings.ToLower` lowers ASCII letters only. `ConfirmAction`'s contract still matches JavaScript, because "y" is the lower case of "Y" and of no other character.

=== FILE: arguments.dfy ===
/** `parseArguments` (src/git/acp/run.ts): a left-to-right scan of the
    argument list. Value options take the next token verbatim, the last
    occurrence of an option wins, `-v` and `-n` write into the settings,
    and help or an unknown token ends the process on the spot. */
module CommandLine {
  import opened Wrappers
  import opened AcpConfig
  import opened Events

  /** The `Arguments` interface: an unset optional field is `None`, an
      unset flag is false. */
  datatype Arguments = Arguments(
    commitMsg: Option<string>,
    newBranch: Option<string>,
    showDiff: bool,
    squash: bool,
    interactiveRebase: bool,
    tagName: Option<string>)

  const NoArguments := Arguments(None, None, false, false, false, None)

  /** Either the parsed request with the settings as `-v`/`-n` left them,
      or a `process.exit` with its status and the one line logged first. */
  datatype ParseResult =
    | Parsed(args: Arguments, config: Config)
    | Exit(code: int, message: Event)

  const UsageLine := "Usage: ts-node run.ts [options]"

  datatype OptionKind =
    | MessageOption | BranchOption | DiffOption | SquashOption | RebaseOption
    | TagOption | VerboseOption | DryRunOption | HelpOption | UnknownOption

  /** The `case` labels of the `switch`. */
  function Classify(token: string): OptionKind {
    if token == "-m" || token == "--message" then MessageOption
    else if token == "-b" || token == "--branch" then BranchOption
    else if token == "-d" || token == "--diff" then DiffOption
    else if token == "-s" || token == "--squash" then SquashOption
    else if token == "-i" || token == "--interactive-rebase" then RebaseOption
    else if token == "-t" || token == "--tag" then TagOption
    else if token == "-v" || token == "--verbose" then VerboseOption
    else if token == "-n" || token == "--dry-run" then DryRunOption
    else if token == "-h" || token == "--help" then HelpOption
    else UnknownOption
  }

  /** Every spelling the `switch` accepts. */
  const Aliases: set<string> := {
    "-m", "--message", "-b", "--branch", "-d", "--diff", "-s", "--squash",
    "-i", "--interactive-rebase", "-t", "--tag", "-v", "--verbose",
    "-n", "--dry-run", "-h", "--help"}

  /** The loop body applied to the tokens still to scan. `args[++i]` past
      the end is `undefined`, which still overwrites the field. */
  function ParseFrom(rest: seq<string>, acc: Arguments, cfg: Config): (r: ParseResult)
    ensures r.Exit? ==>
      || (r.code == 0 && r.message == Log(Info, UsageLine))
      || (&& r.code == 1 && r.message.Log? && r.message.level == Error
          && exists i :: 0 <= i < |rest| && rest[i] !in Aliases && r.message.text == "Unknown option: " + rest[i])
    ensures r.Parsed? ==>
      && r.config.retryAttempts == cfg.retryAttempts
      && r.config.defaultCommitMsg == cfg.defaultCommitMsg
      && r.config.defaultBranch == cfg.defaultBranch
      && (cfg.verbose ==> r.config.verbose)
      && (cfg.dryRun ==> r.config.dryRun)
    decreases |rest|
  {
    if rest == [] then Parsed(acc, cfg)
    else
      var value := if |rest| >= 2 then Some(rest[1]) else None;
      var afterValue := if |rest| >= 2 then rest[2..] else [];
      match Classify(rest[0])
      case MessageOption => ParseFrom(afterValue, acc.(commitMsg := value), cfg)
      case BranchOption => ParseFrom(afterValue, acc.(newBranch := value), cfg)
      case DiffOption => ParseFrom(rest[1..], acc.(showDiff := true), cfg)
      case SquashOption => ParseFrom(rest[1..], acc.(squash := true), cfg)
      case RebaseOption => ParseFrom(rest[1..], acc.(interactiveRebase := true), cfg)
      case TagOption => ParseFrom(afterValue, acc.(tagName := value), cfg)
      case VerboseOption => ParseFrom(rest[1..], acc, cfg.(verbose := true))
      case DryRunOption => ParseFrom(rest[1..], acc, cfg.(dryRun := true))
      case HelpOption => Exit(0, Log(Info, UsageLine))
      case UnknownOption => Exit(1, Log(Error, "Unknown option: " + rest[0]))
  }

  /** `parseArguments(args)`: the scan from the first token with nothing
      set. An empty list asks for nothing; an early exit is help or an
      unknown token of `args`; the settings other than verbose and dry run
      are never touched. */
  function ParseArguments(args: seq<string>, cfg: Config): (r: ParseResult)
    ensures args == [] ==> r == Parsed(NoArguments, cfg)
    ensures r.Exit? ==>
      || (r.code == 0 && r.message == Log(Info, UsageLine))
      || (&& r.code == 1 && r.message.Log? && r.message.level == Error
          && exists i :: 0 <= i < |args| && args[i] !in Aliases && r.message.text == "Unknown option: " + args[i])
    ensures r.Parsed? ==>
      && r.config.retryAttempts == cfg.retryAttempts
      && r.config.defaultCommitMsg == cfg.defaultCommitMsg
      && r.config.defaultBranch == cfg.defaultBranch
      && (cfg.verbose ==> r.config.verbose)
      && (cfg.dryRun ==> r.config.dryRun)
  {
    ParseFrom(args, NoArguments, cfg)
  }

  // A reference description of well-formed command lines.

  /** One option as a user writes it. */
  datatype Opt =
    | Message(value: string)
    | Branch(value: string)
    | TagName(value: string)
    | Diff
    | SquashFlag
    | Rebase
    | Verbose
    | DryRun

  /** An option and whether its long spelling is used. */
  datatype Written = Written(opt: Opt, long: bool)

  function Spelling(w: Written): string {
    match w.opt
    case Message(_) => if w.long then "--message" else "-m"
    case Branch(_) => if w.long then "--branch" else "-b"
    case TagName(_) => if w.long then "--tag" else "-t"
    case Diff => if w.long then "--diff" else "-d"
    case SquashFlag => if w.long then "--squash" else "-s"
    case Rebase => if w.long then "--interactive-rebase" else "-i"
    case Verbose => if w.long then "--verbose" else "-v"
    case DryRun => if w.long then "--dry-run" else "-n"
  }

  predicate TakesValue(o: Opt) {
    o.Message? || o.Branch? || o.TagName?
  }

  /** The tokens of one option: its spelling, then its value if it has one. */
  function Tokens(w: Written): seq<string> {
    [Spelling(w)] + (if TakesValue(w.opt) then [w.opt.value] else [])
  }

  function Encode(ws: seq<Written>): seq<string> {
    if ws == [] then [] else Tokens(ws[0]) + Encode(ws[1..])
  }

  datatype Field = MessageField | BranchField | TagField

  function ValueFor(o: Opt, f: Field): Option<string> {
    match o
    case Message(v) => if f == MessageField then Some(v) else None
    case Branch(v) => if f == BranchField then Some(v) else None
    case TagName(v) => if f == TagField then Some(v) else None
    case _ => None
  }

  /** The value of the last option in `ws` that sets field `f`. */
  function LastValue(ws: seq<Written>, f: Field): Option<string> {
    if ws == [] then None
    else if ValueFor(ws[|ws| - 1].opt, f).Some? then ValueFor(ws[|ws| - 1].opt, f)
    else LastValue(ws[..|ws| - 1], f)
  }

  predicate Mentions(ws: seq<Written>, o: Opt) {
    exists i :: 0 <= i < |ws| && ws[i].opt == o
  }

  /** What a well-formed command line asks for: each value field holds
      its last occurrence, each flag is set when it appears anywhere. */
  function Requested(ws: seq<Written>): Arguments {
    Arguments(
      commitMsg := LastValue(ws, MessageField),
      newBranch := LastValue(ws, BranchField),
      showDiff := Mentions(ws, Diff),
      squash := Mentions(ws, SquashFlag),
      interactiveRebase := Mentions(ws, Rebase),
      tagName := LastValue(ws, TagField))
  }

  /** The settings after the switches of `ws`: only `verbose` and
      `dryRun` can change, and only to true. */
  function Overridden(cfg: Config, ws: seq<Written>): Config {
    cfg.(verbose := cfg.verbose || Mentions(ws, Verbose),
         dryRun := cfg.dryRun || Mentions(ws, DryRun))
  }

  // Proofs

  /** The single-option effect used by the proofs below. */
  function StepArgs(acc: Arguments, o: Opt): Arguments {
    match o
    case Message(v) => acc.(commitMsg := Some(v))
    case Branch(v) => acc.(newBranch := Some(v))
    case TagName(v) => acc.(tagName := Some(v))
    case Diff => acc.(showDiff := true)
    case SquashFlag => acc.(squash := true)
    case Rebase => acc.(interactiveRebase := true)
    case _ => acc
  }

  function StepConfig(cfg: Config, o: Opt): Config {
    match o
    case Verbose => cfg.(verbose := true)
    case DryRun => cfg.(dryRun := true)
    case _ => cfg
  }

  lemma OneOption(w: Written, rest: seq<string>, acc: Arguments, cfg: Config)
    ensures ParseFrom(Tokens(w) + rest, acc, cfg)
      == ParseFrom(rest, StepArgs(acc, w.opt), StepConfig(cfg, w.opt))
  {
    var t := Tokens(w) + rest;
    assert t[0] == Spelling(w);
    if TakesValue(w.opt) {
      assert t[1] == w.opt.value;
      assert t[2..] == rest;
    } else {
      assert t[1..] == rest;
    }
  }

  lemma EncodeAppend(ws: seq<Written>, w: Written)
    ensures Encode(ws + [w]) == Encode(ws) + Tokens(w)
  {
    if ws == [] {
      assert Encode([w]) == Tokens(w) + Encode([]);
    } else {
      assert (ws + [w])[0] == ws[0];
      assert (ws + [w])[1..] == ws[1..] + [w];
      EncodeAppend(ws[1..], w);
    }
  }

  /** A well-formed prefix is consumed exactly: parsing continues after it
      with the state it produced. */
  lemma {:induction false} ParseAppend(ws: seq<Written>, q: seq<string>, acc: Arguments, cfg: Config)
    ensures ParseFrom(Encode(ws), acc, cfg).Parsed?
    ensures var p := ParseFrom(Encode(ws), acc, cfg);
      ParseFrom(Encode(ws) + q, acc, cfg) == ParseFrom(q, p.args, p.config)
    decreases |ws|
  {
    if ws == [] {
      assert Encode(ws) + q == q;
    } else {
      var w := ws[0];
      var a', c' := StepArgs(acc, w.opt), StepConfig(cfg, w.opt);
      assert Encode(ws) + q == Tokens(w) + (Encode(ws[1..]) + q);
      OneOption(w, Encode(ws[1..]) + q, acc, cfg);
      OneOption(w, Encode(ws[1..]), acc, cfg);
      ParseAppend(ws[1..], q, a', c');
    }
  }

  lemma MentionsAppend(ws: seq<Written>, w: Written, o: Opt)
    ensures Mentions(ws + [w], o) <==> Mentions(ws, o) || w.opt == o
  {
    if Mentions(ws, o) {
      var i :| 0 <= i < |ws| && ws[i].opt == o;
      assert (ws + [w])[i] == ws[i];
    }
    if w.opt == o {
      assert (ws + [w])[|ws|] == w;
    }
    if Mentions(ws + [w], o) {
      var i :| 0 <= i < |ws + [w]| && (ws + [w])[i].opt == o;
      if i < |ws| {
        assert ws[i] == (ws + [w])[i];
      }
    }
  }

  /** Parsing a well-formed command line yields exactly the reference
      request: values are taken verbatim (even ones that look like
      options), the last occurrence of each value option wins, flags are
      set wherever they appear, and `-v`/`-n` touch only the settings. */
  lemma {:induction false} ParseEncoded(ws: seq<Written>, cfg: Config)
    ensures ParseArguments(Encode(ws), cfg) == Parsed(Requested(ws), Overridden(cfg, ws))
    decreases |ws|
  {
    if ws == [] {
      assert Requested(ws) == NoArguments;
      assert Overridden(cfg, ws) == cfg;
    } else {
      var init, w := ws[..|ws| - 1], ws[|ws| - 1];
      assert ws == init + [w];
      EncodeAppend(init, w);
      ParseAppend(init, Tokens(w), NoArguments, cfg);
      ParseEncoded(init, cfg);
      OneOption(w, [], Requested(init), Overridden(cfg, init));
      assert Tokens(w) + [] == Tokens(w);
      RequestedAppend(init, w, cfg);
    }
  }

  /** One more option changes the request the way one parsing step does. */
  lemma RequestedAppend(init: seq<Written>, w: Written, cfg: Config)
    ensures Requested(init + [w]) == StepArgs(Requested(init), w.opt)
    ensures Overridden(cfg, init + [w]) == StepConfig(Overridden(cfg, init), w.opt)
  {
    var ws := init + [w];
    assert ws[|ws| - 1] == w && ws[..|ws| - 1] == init;
    forall o ensures Mentions(ws, o) <==> Mentions(init, o) || w.opt == o {
      MentionsAppend(init, w, o);
    }
  }

  /** Help and unknown tokens end parsing at once: nothing after them is
      examined. */
  lemma ParseStopsAt(ws: seq<Written>, token: string, rest: seq<string>, cfg: Config)
    requires token !in Aliases || Classify(token) == HelpOption
    ensures token !in Aliases ==>
      ParseArguments(Encode(ws) + [token] + rest, cfg) == Exit(1, Log(Error, "Unknown option: " + token))
    ensures token in Aliases ==>
      ParseArguments(Encode(ws) + [token] + rest, cfg) == Exit(0, Log(Info, UsageLine))
  {
    var q := [token] + rest;
    ParseAppend(ws, q, NoArguments, cfg);
    assert Encode(ws) + [token] + rest == Encode(ws) + q;
    var p := ParseFrom(Encode(ws), NoArguments, cfg);
    StopsHere(token, rest, p.args, p.config);
  }

  /** An unknown or help token ends parsing on the spot. */
  lemma StopsHere(token: string, rest: seq<string>, acc: Arguments, cfg: Config)
    ensures token !in Aliases ==>
      ParseFrom([token] + rest, acc, cfg) == Exit(1, Log(Error, "Unknown option: " + token))
    ensures Classify(token) == HelpOption ==>
      ParseFrom([token] + rest, acc, cfg) == Exit(0, Log(Info, UsageLine))
  {
    assert ([token] + rest)[0] == token;
  }

  /** A value option as the very last token reads `undefined`, which
      clears whatever an earlier occurrence had set. */
  lemma DanglingValueOptionClears(ws: seq<Written>, token: string, cfg: Config)
    requires Classify(token) in {MessageOption, BranchOption, TagOption}
    ensures var r := ParseArguments(Encode(ws) + [token], cfg);
      && r == Parsed(
        match Classify(token)
        case MessageOption => Requested(ws).(commitMsg := None)
        case BranchOption => Requested(ws).(newBranch := None)
        case _ => Requested(ws).(tagName := None),
        Overridden(cfg, ws))
  {
    ParseAppend(ws, [token], NoArguments, cfg);
    ParseEncoded(ws, cfg);
  }
}

=== FILE: config.dfy ===
/** The settings record every run reads (src/git/acp/config.ts and the
    record shape of src/git/acp/config/config.ts). */
module AcpConfig {

  /** `retryAttempts` is a JavaScript number; the model keeps it an
      unbounded integer, so zero and negative counts stay expressible. */
  datatype Config = Config(
    retryAttempts: int,
    defaultCommitMsg: string,
    defaultBranch: string,
    verbose: bool,
    dryRun: bool)

  /** `loadConfig()`: a fixed record, independent of any input. */
  function LoadConfig(): (c: Config)
    ensures c.retryAttempts == 3 && c.retryAttempts > 0
    ensures c.defaultCommitMsg == "Auto Commit"
    ensures c.defaultBranch == "main"
    ensures !c.verbose && !c.dryRun
  {
    Config(
      retryAttempts := 3,
      defaultCommitMsg := "Auto Commit",
      defaultBranch := "main",
      verbose := false,
      dryRun := false)
  }
}

=== FILE: events.dfy ===
/** The observable trace of one run: which git commands were spawned or
    only simulated, what was written to the log, and which prompts were
    answered. */
module Events {
  import opened Wrappers

  datatype Level = Info | Error

  /** The git invocations issued through `executeCommand`, one per helper
      of src/git/acp/run.ts. */
  datatype GitCommand =
    | Checkout(branch: string)
    | Add
    | Commit(message: string)
    | Squash
    | InteractiveRebase
    | Push
    | Tag(name: string)

  /** The exact shell command line each helper builds. */
  function Line(c: GitCommand): string {
    match c
    case Checkout(b) => "git checkout -b " + b
    case Add => "git add ."
    case Commit(m) => "git commit -m \"" + m + "\""
    case Squash => "git rebase -i HEAD~2"
    case InteractiveRebase => "git rebase -i"
    case Push => "git push"
    case Tag(t) => "git tag " + t + " && git push origin " + t
  }

  /** The two letters after "git " in each command line. */
  function Signature(c: GitCommand): (char, char) {
    match c
    case Checkout(_) => ('c', 'h')
    case Add => ('a', 'd')
    case Commit(_) => ('c', 'o')
    case Squash => ('r', 'e')
    case InteractiveRebase => ('r', 'e')
    case Push => ('p', 'u')
    case Tag(_) => ('t', 'a')
  }

  /** Every command line is a git invocation, and the two letters after
      "git " tell the helpers apart. */
  lemma LineShape(c: GitCommand)
    ensures var r := Line(c);
      |r| >= 8 && r[..4] == "git " && (r[4], r[5]) == Signature(c)
  {
  }

  /** A command line names its command: two commands share a line only
      when they are the same command, so a "Dry-run: " line tells which
      command was skipped. */
  lemma LineIdentifiesCommand(c: GitCommand, d: GitCommand)
    ensures Line(c) == Line(d) <==> c == d
  {
    LineShape(c);
    LineShape(d);
    var s := Line(c);
    if s == Line(d) && Signature(c) == Signature(d) {
      match c
      case Checkout(b) =>
        assert s[16..] == b && s[16..] == d.branch;
      case Commit(m) =>
        assert s[15..|s| - 1] == m && s[15..|s| - 1] == d.message;
      case Tag(t) =>
        assert |s| == 28 + 2 * |t| == 28 + 2 * |d.name|;
        assert s[8..8 + |t|] == t && s[8..8 + |t|] == d.name;
      case Squash =>
        assert |s| == 20 != |Line(InteractiveRebase)|;
      case InteractiveRebase =>
        assert |s| == 13 != |Line(Squash)|;
      case _ =>
    }
  }

  /** The read-only diff, run directly and not through `executeCommand`. */
  const DiffLine := "git diff"

  datatype Event =
    | Executed(command: GitCommand, ok: bool)      // spawned; `ok` is a zero exit status
    | Simulated(command: GitCommand)               // dry-run: logged instead of spawned
    | DiffRead(ok: bool)                           // `git diff` spawned, whatever the mode
    | Log(level: Level, text: string)
    | Prompt(question: string, answer: Option<string>)  // None: input ended, never answered

  /** The commands issued, spawned or simulated, in order. */
  function Commands(t: seq<Event>): seq<GitCommand> {
    if t == [] then []
    else
      (match t[0]
       case Executed(c, _) => [c]
       case Simulated(c) => [c]
       case _ => []) + Commands(t[1..])
  }

  /** The lines written to the log; a simulated command is logged as
      "Dry-run: " followed by its command line. */
  function LogLines(t: seq<Event>): seq<string> {
    if t == [] then []
    else
      (match t[0]
       case Simulated(c) => ["Dry-run: " + Line(c)]
       case Log(_, text) => [text]
       case _ => []) + LogLines(t[1..])
  }

  /** No process is spawned anywhere in `t`. */
  predicate SpawnsNothing(t: seq<Event>) {
    forall i :: 0 <= i < |t| ==> !t[i].Executed? && !t[i].DiffRead?
  }

  /** Splitting off the first event. */
  lemma CommandsCons(x: Event, t: seq<Event>)
    ensures Commands([x] + t) == Commands([x]) + Commands(t)
  {
    assert ([x] + t)[0] == x && ([x] + t)[1..] == t;
    assert [x][1..] == [];
  }

  lemma LogLinesCons(x: Event, t: seq<Event>)
    ensures LogLines([x] + t) == LogLines([x]) + LogLines(t)
  {
    assert ([x] + t)[0] == x && ([x] + t)[1..] == t;
    assert [x][1..] == [];
  }

  lemma {:induction false} CommandsAppend(a: seq<Event>, b: seq<Event>)
    ensures Commands(a + b) == Commands(a) + Commands(b)
  {
    if a == [] {
      assert a + b == b;
    } else {
      var x, rest := a[0], a[1..];
      assert a == [x] + rest;
      assert a + b == [x] + (rest + b);
      CommandsAppend(rest, b);
      CommandsCons(x, rest + b);
      CommandsCons(x, rest);
      var h := Commands([x]);
      assert h + (Commands(rest) + Commands(b)) == (h + Commands(rest)) + Commands(b);
    }
  }

  lemma {:induction false} LogLinesAppend(a: seq<Event>, b: seq<Event>)
    ensures LogLines(a + b) == LogLines(a) + LogLines(b)
  {
    if a == [] {
      assert a + b == b;
    } else {
      var x, rest := a[0], a[1..];
      assert a == [x] + rest;
      assert a + b == [x] + (rest + b);
      LogLinesAppend(rest, b);
      LogLinesCons(x, rest + b);
      LogLinesCons(x, rest);
      var h := LogLines([x]);
      assert h + (LogLines(rest) + LogLines(b)) == (h + LogLines(rest)) + LogLines(b);
    }
  }
}

=== FILE: executor.dfy ===
/** The utilities of src/git/acp/run.ts that the workflow drives: the
    dry-run boundary `executeCommand`, the retry loop `performGitPush` and
    the answer test of `confirmAction`. */
module Executor {
  import opened Strings
  import opened Events

  /** What one `executeCommand` call leaves behind: its events and whether
      it returned normally (true) or threw (false). */
  datatype Attempt = Attempt(events: seq<Event>, ok: bool)

  /** `executeCommand(cmd)`. `spawnOk` says whether the process would exit
      with status zero; `execSync` throws when it does not. */
  function ExecuteCommand(cmd: GitCommand, dryRun: bool, spawnOk: bool): (r: Attempt)
    ensures |r.events| == 1 && Commands(r.events) == [cmd]
    ensures !dryRun ==> r.events[0].Executed? && r.events[0].ok == r.ok
    ensures dryRun ==> r.ok && SpawnsNothing(r.events) && LogLines(r.events) == ["Dry-run: " + Line(cmd)]
    ensures !dryRun ==> r.ok == spawnOk && !SpawnsNothing(r.events) && LogLines(r.events) == []
  {
    if dryRun then Attempt([Simulated(cmd)], true)
    else Attempt([Executed(cmd, spawnOk)], spawnOk)
  }

  /** `confirmAction`: the answer, lower-cased, must be exactly "y". */
  function ConfirmAction(answer: string): (r: bool)
    ensures r <==> answer == "y" || answer == "Y"
  {
    var lowered := ToLower(answer);
    assert |lowered| == 1 ==> lowered == [LowerChar(answer[0])];
    lowered == "y"
  }

  function RetryLine(i: int, n: int): string {
    "Push failed, retrying (" + Decimal(i) + "/" + Decimal(n) + ")..."
  }

  /** Whether one event may come out of the push loop: a push command,
      spawned or simulated, or an error line. */
  predicate IsPushEvent(e: Event) {
    match e
    case Executed(c, _) => c == Push
    case Simulated(c) => c == Push
    case Log(level, _) => level == Error
    case _ => false
  }

  predicate OnlyPushEvents(t: seq<Event>) {
    forall i :: 0 <= i < |t| ==> IsPushEvent(t[i])
  }

  datatype PushOutcome = PushOutcome(events: seq<Event>, pushed: bool)

  /** The `for` loop of `performGitPush` from iteration `i` on, for
      `retry_attempts` equal to `n`. `attemptOk(j)` is the outcome of the
      (j+1)-th spawned push. */
  function PushFrom(i: int, n: int, dryRun: bool, attemptOk: nat -> bool): (r: PushOutcome)
    requires 1 <= i
    ensures OnlyPushEvents(r.events)
    ensures |Commands(r.events)| <= if i <= n then n - i + 1 else 0
    ensures r.pushed ==> |Commands(r.events)| >= 1
    ensures dryRun ==> SpawnsNothing(r.events)
    decreases n - i
  {
    if i > n then PushOutcome([], false)
    else
      var a := ExecuteCommand(Push, dryRun, attemptOk(i - 1));
      if a.ok then PushOutcome(a.events, true)
      else
        var logged := a.events + [Log(Error, RetryLine(i, n))];
        assert Commands(logged) == [Push] by {
          CommandsAppend(a.events, [Log(Error, RetryLine(i, n))]);
        }
        if i == n then PushOutcome(logged, false)
        else
          var rest := PushFrom(i + 1, n, dryRun, attemptOk);
          CommandsAppend(logged, rest.events);
          PushOutcome(logged + rest.events, rest.pushed)
  }

  /** `performGitPush()` with `retry_attempts` equal to `n`. */
  function GitPush(n: int, dryRun: bool, attemptOk: nat -> bool): (r: PushOutcome)
    ensures OnlyPushEvents(r.events)
    ensures |Commands(r.events)| <= if n >= 1 then n else 0
    ensures r.pushed ==> |Commands(r.events)| >= 1
    ensures n <= 0 ==> r.events == [] && !r.pushed
    ensures dryRun ==> SpawnsNothing(r.events)
    ensures dryRun && n >= 1 ==>
      r.pushed && Commands(r.events) == [Push] && LogLines(r.events) == ["Dry-run: " + Line(Push)]
  {
    PushFrom(1, n, dryRun, attemptOk)
  }

  /** The push succeeds exactly when some permitted attempt succeeds; in
      dry-run mode that is the first one. */
  lemma {:induction false} PushFromSucceedsIff(i: int, n: int, dryRun: bool, attemptOk: nat -> bool)
    requires 1 <= i
    ensures PushFrom(i, n, dryRun, attemptOk).pushed <==>
      i <= n && (dryRun || exists j :: i - 1 <= j < n && attemptOk(j))
    decreases n - i
  {
    if i <= n && !dryRun && !attemptOk(i - 1) && i < n {
      PushFromSucceedsIff(i + 1, n, dryRun, attemptOk);
      if exists j :: i - 1 <= j < n && attemptOk(j) {
        var j :| i - 1 <= j < n && attemptOk(j);
        assert i <= j;
      }
    }
  }

  lemma GitPushSucceedsIff(n: int, dryRun: bool, attemptOk: nat -> bool)
    ensures GitPush(n, dryRun, attemptOk).pushed <==>
      n >= 1 && (dryRun || exists j :: 0 <= j < n && attemptOk(j))
  {
    PushFromSucceedsIff(1, n, dryRun, attemptOk);
  }

  /** `count` push commands. */
  function Pushes(count: nat): seq<GitCommand> {
    if count == 0 then [] else [Push] + Pushes(count - 1)
  }

  /** The retry lines of attempts `from`, `from + 1`, ... (`count` of
      them) out of `n`. */
  function RetryLines(from: int, n: int, count: nat): seq<string>
    decreases count
  {
    if count == 0 then [] else [RetryLine(from, n)] + RetryLines(from + 1, n, count - 1)
  }

  /** One failed attempt that is not the last: its two events, then the
      rest of the loop. */
  lemma FailedAttemptUnfolds(i: int, n: int, attemptOk: nat -> bool)
    requires 1 <= i < n
    requires !attemptOk(i - 1)
    ensures var rest := PushFrom(i + 1, n, false, attemptOk);
      PushFrom(i, n, false, attemptOk)
        == PushOutcome([Executed(Push, false), Log(Error, RetryLine(i, n))] + rest.events, rest.pushed)
  {
  }

  /** A successful attempt ends the loop at once. */
  lemma AttemptSucceeds(i: int, n: int, attemptOk: nat -> bool)
    requires 1 <= i <= n
    requires attemptOk(i - 1)
    ensures PushFrom(i, n, false, attemptOk) == PushOutcome(Failures(i, i, n) + [Executed(Push, true)], true)
  {
    assert Failures(i, i, n) + [Executed(Push, true)] == [Executed(Push, true)];
  }

  /** A failed last attempt logs its retry line and gives up. */
  lemma LastAttemptFails(n: int, attemptOk: nat -> bool)
    requires 1 <= n
    requires !attemptOk(n - 1)
    ensures PushFrom(n, n, false, attemptOk) == PushOutcome(Failures(n, n + 1, n), false)
  {
    assert Failures(n, n + 1, n) == [Executed(Push, false), Log(Error, RetryLine(n, n))] + [];
  }

  /** The observations of a failed attempt followed by `rest`. */
  lemma FailedAttemptObserved(i: int, n: int, rest: seq<Event>)
    ensures var t := [Executed(Push, false), Log(Error, RetryLine(i, n))] + rest;
      && Commands(t) == [Push] + Commands(rest)
      && LogLines(t) == [RetryLine(i, n)] + LogLines(rest)
  {
    var head := [Executed(Push, false), Log(Error, RetryLine(i, n))];
    CommandsAppend(head, rest);
    LogLinesAppend(head, rest);
    assert head[1..] == [Log(Error, RetryLine(i, n))];
    assert head[1..][1..] == [];
  }

  /** The events of the failed attempts `lo` to `hi - 1` out of `n`. */
  function Failures(lo: int, hi: int, n: int): seq<Event>
    decreases hi - lo
  {
    if lo >= hi then []
    else [Executed(Push, false), Log(Error, RetryLine(lo, n))] + Failures(lo + 1, hi, n)
  }

  /** What a run of failures shows: one push and one retry line each. */
  lemma {:induction false} FailuresObserved(lo: int, hi: int, n: int)
    requires lo <= hi
    ensures Commands(Failures(lo, hi, n)) == Pushes(hi - lo)
    ensures LogLines(Failures(lo, hi, n)) == RetryLines(lo, n, hi - lo)
    decreases hi - lo
  {
    if lo < hi {
      var c: nat := hi - (lo + 1);
      FailuresObserved(lo + 1, hi, n);
      FailedAttemptObserved(lo, n, Failures(lo + 1, hi, n));
      assert Pushes(c + 1) == [Push] + Pushes(c);
      assert RetryLines(lo, n, c + 1) == [RetryLine(lo, n)] + RetryLines(lo + 1, n, c);
    }
  }

  /** A push that keeps failing runs every remaining iteration, and every
      failure, the last one included, logs a retry line. */
  lemma {:induction false} PushFromExhaustedEvents(i: int, n: int, attemptOk: nat -> bool)
    requires 1 <= i <= n
    requires forall j :: i - 1 <= j < n ==> !attemptOk(j)
    ensures PushFrom(i, n, false, attemptOk) == PushOutcome(Failures(i, n + 1, n), false)
    decreases n - i, 1
  {
    if i < n {
      FailureBeforeFailures(i, n, attemptOk);
    } else {
      assert !attemptOk(n - 1);
      LastAttemptFails(n, attemptOk);
    }
  }

  /** A failed attempt in front of the remaining failures of the loop. */
  lemma {:induction false} FailureBeforeFailures(i: int, n: int, attemptOk: nat -> bool)
    requires 1 <= i < n
    requires forall j :: i - 1 <= j < n ==> !attemptOk(j)
    ensures PushFrom(i, n, false, attemptOk) == PushOutcome(Failures(i, n + 1, n), false)
    decreases n - i, 0
  {
    PushFromExhaustedEvents(i + 1, n, attemptOk);
    assert !attemptOk(i - 1);
    FailedAttemptUnfolds(i, n, attemptOk);
  }

  lemma PushFromExhausted(i: int, n: int, attemptOk: nat -> bool)
    requires 1 <= i <= n
    requires forall j :: i - 1 <= j < n ==> !attemptOk(j)
    ensures var r := PushFrom(i, n, false, attemptOk);
      && !r.pushed
      && Commands(r.events) == Pushes(n - i + 1)
      && LogLines(r.events) == RetryLines(i, n, n - i + 1)
  {
    PushFromExhaustedEvents(i, n, attemptOk);
    FailuresObserved(i, n + 1, n);
  }

  /** With `n` attempts that all fail, the push is tried exactly `n`
      times, logs the retry lines of attempts 1 to `n`, and reports
      failure. */
  lemma GitPushExhausted(n: int, attemptOk: nat -> bool)
    requires n >= 1
    requires forall j :: 0 <= j < n ==> !attemptOk(j)
    ensures var r := GitPush(n, false, attemptOk);
      && !r.pushed
      && Commands(r.events) == Pushes(n)
      && LogLines(r.events) == RetryLines(1, n, n)
  {
    PushFromExhausted(1, n, attemptOk);
  }

  /** When attempt `k` is the first to succeed, the failures before it
      come first and the successful push ends the loop. */
  lemma {:induction false} PushFromFirstSuccessEvents(i: int, n: int, k: int, attemptOk: nat -> bool)
    requires 1 <= i <= k <= n
    requires attemptOk(k - 1)
    requires forall j :: i - 1 <= j < k - 1 ==> !attemptOk(j)
    ensures PushFrom(i, n, false, attemptOk)
      == PushOutcome(Failures(i, k, n) + [Executed(Push, true)], true)
    decreases k - i, 1
  {
    if i < k {
      FailureBeforeSuccess(i, n, k, attemptOk);
    } else {
      AttemptSucceeds(i, n, attemptOk);
    }
  }

  /** A failed attempt in front of further failures and a success. */
  lemma {:induction false} FailureBeforeSuccess(i: int, n: int, k: int, attemptOk: nat -> bool)
    requires 1 <= i < k <= n
    requires attemptOk(k - 1)
    requires forall j :: i - 1 <= j < k - 1 ==> !attemptOk(j)
    ensures PushFrom(i, n, false, attemptOk)
      == PushOutcome(Failures(i, k, n) + [Executed(Push, true)], true)
    decreases k - i, 0
  {
    PushFromFirstSuccessEvents(i + 1, n, k, attemptOk);
    assert !attemptOk(i - 1);
    FailedAttemptUnfolds(i, n, attemptOk);
    var head := [Executed(Push, false), Log(Error, RetryLine(i, n))];
    var fs := Failures(i + 1, k, n);
    assert head + (fs + [Executed(Push, true)]) == (head + fs) + [Executed(Push, true)];
  }

  /** When attempt `k` is the first to succeed, exactly `k` attempts are
      made and the `k - 1` failures before it each log a retry line. */
  lemma PushFromFirstSuccess(i: int, n: int, k: int, attemptOk: nat -> bool)
    requires 1 <= i <= k <= n
    requires attemptOk(k - 1)
    requires forall j :: i - 1 <= j < k - 1 ==> !attemptOk(j)
    ensures var r := PushFrom(i, n, false, attemptOk);
      && r.pushed
      && Commands(r.events) == Pushes(k - i + 1)
      && LogLines(r.events) == RetryLines(i, n, k - i)
  {
    PushFromFirstSuccessEvents(i, n, k, attemptOk);
    SuccessAfterFailuresObserved(i, k, n);
  }

  /** What failures followed by a success show: one more push than
      failures, and only the failures' retry lines. */
  lemma SuccessAfterFailuresObserved(lo: int, hi: int, n: int)
    requires lo <= hi
    ensures var t := Failures(lo, hi, n) + [Executed(Push, true)];
      && Commands(t) == Pushes(hi - lo + 1)
      && LogLines(t) == RetryLines(lo, n, hi - lo)
  {
    var fs := Failures(lo, hi, n);
    FailuresObserved(lo, hi, n);
    PushesAppendOne(hi - lo);
    CommandsAppend(fs, [Executed(Push, true)]);
    LogLinesAppend(fs, [Executed(Push, true)]);
    assert Commands([Executed(Push, true)]) == [Push];
    assert LogLines([Executed(Push, true)]) == [];
    assert RetryLines(lo, n, hi - lo) + [] == RetryLines(lo, n, hi - lo);
  }

  lemma {:induction false} PushesAppendOne(count: nat)
    ensures Pushes(count) + [Push] == Pushes(count + 1)
    decreases count
  {
    if count > 0 {
      PushesAppendOne(count - 1);
      assert [Push] + Pushes(count - 1) + [Push] == [Push] + (Pushes(count - 1) + [Push]);
    }
  }

  lemma GitPushFirstSuccess(n: int, k: int, attemptOk: nat -> bool)
    requires 1 <= k <= n
    requires attemptOk(k - 1)
    requires forall j :: 0 <= j < k - 1 ==> !attemptOk(j)
    ensures var r := GitPush(n, false, attemptOk);
      && r.pushed
      && Commands(r.events) == Pushes(k)
      && LogLines(r.events) == RetryLines(1, n, k - 1)
  {
    PushFromFirstSuccess(1, n, k, attemptOk);
  }
}

=== FILE: run.dfy ===
/** `main` of src/git/acp/run.ts, with the module-level shell detection
    that runs before it. Process spawning, the operator's answers and the
    diff text are inputs (`World`); `process.exit` and normal completion
    are the terminal `Done` state carrying the exit status. */
module AcpRun {
  import opened Wrappers
  import opened Strings
  import opened AcpConfig
  import opened Events
  import opened Executor
  import opened CommandLine
  import ShellDetect

  const DiffQuestion := "Do you want to continue with the commit? (y/n): "
  const PushQuestion := "Do you want to push the changes? (y/n): "
  const CompletedLine := "Operation completed successfully."

  /** What `handleError` logs for the error `execSync` throws. The logger's
      `simple` format has no `splat` step, so the second argument of each
      call (the error's message, its stack) is dropped: only the two fixed
      prefixes are written. */
  const ErrorReport: seq<Event> := [Log(Error, "An error occurred:"), Log(Error, "Stack trace:")]

  function PushFailedLine(n: int): string {
    "Failed to push after " + Decimal(n) + " attempts"
  }

  /** JavaScript truthiness of an optional string: present and non-empty. */
  predicate Truthy(o: Option<string>) {
    o.Some? && o.value != ""
  }

  /** `parsedArgs.commitMsg || config.default_commit_msg`. */
  function CommitMessage(a: Arguments, cfg: Config): string {
    if Truthy(a.commitMsg) then a.commitMsg.value else cfg.defaultCommitMsg
  }

  /** Everything outside the program: `spawnOk(k)` says whether the k-th
      spawned process (counting from 0) exits with status zero, `answers`
      are the operator's replies in order, `diffText` is what `git diff`
      prints. */
  datatype World = World(answers: seq<string>, spawnOk: nat -> bool, diffText: string)

  /** A run in progress (its trace, processes spawned and answers used so
      far) or a finished one with its exit status. */
  datatype Run =
    | Running(trace: seq<Event>, spawned: nat, asked: nat)
    | Done(trace: seq<Event>, exit: int)

  /** One `executeCommand` call inside `main`'s `try`: a command that
      throws is reported by `handleError` and ends the run with status 1. */
  function Step(cfg: Config, w: World, s: Run, cmd: GitCommand): Run {
    match s
    case Done(_, _) => s
    case Running(t, k, q) =>
      var x := ExecuteCommand(cmd, cfg.dryRun, w.spawnOk(k));
      if x.ok then Running(t + x.events, if cfg.dryRun then k else k + 1, q)
      else Done(t + x.events + ErrorReport, 1)
  }

  /** `await confirmAction(question)`. When the input has ended the
      question is never answered; nothing else is pending, so the process
      exits with status 0. */
  function Ask(w: World, t: seq<Event>, k: nat, q: nat, question: string): (Run, bool) {
    if q < |w.answers| then
      (Running(t + [Prompt(question, Some(w.answers[q]))], k, q + 1), ConfirmAction(w.answers[q]))
    else
      (Done(t + [Prompt(question, None)], 0), false)
  }

  /** `logger.info(showDiff())` and the commit confirmation. The diff is
      spawned directly, so it runs in dry-run mode too. */
  function DiffStep(w: World, s: Run): Run {
    match s
    case Done(_, _) => s
    case Running(t, k, q) =>
      if !w.spawnOk(k) then Done(t + [DiffRead(false)] + ErrorReport, 1)
      else
        var (s', yes) := Ask(w, t + [DiffRead(true), Log(Info, w.diffText)], k + 1, q, DiffQuestion);
        if s'.Running? && !yes then Done(s'.trace, 0) else s'
  }

  /** `performPush`: a declined prompt and an exhausted retry loop are both
      only logged; the run goes on. */
  function PushStep(cfg: Config, w: World, s: Run): Run {
    match s
    case Done(_, _) => s
    case Running(t, k, q) =>
      var (s', yes) := Ask(w, t, k, q, PushQuestion);
      if !s'.Running? || !yes then s'
      else
        var p := GitPush(cfg.retryAttempts, cfg.dryRun, (j: nat) => w.spawnOk(k + j));
        var failed := if p.pushed then [] else [Log(Error, PushFailedLine(cfg.retryAttempts))];
        Running(s'.trace + p.events + failed,
                k + (if cfg.dryRun then 0 else |Commands(p.events)|), s'.asked)
  }

  /** The steps before the push prompt: diff review, branch, add, commit,
      squash, interactive rebase. */
  function BeforePush(a: Arguments, cfg: Config, w: World): Run {
    var s0 := Running([], 0, 0);
    var s1 := if a.showDiff then DiffStep(w, s0) else s0;
    var s2 := if Truthy(a.newBranch) then Step(cfg, w, s1, Checkout(a.newBranch.value)) else s1;
    var s3 := Step(cfg, w, Step(cfg, w, s2, Add), Commit(CommitMessage(a, cfg)));
    var s4 := if a.squash then Step(cfg, w, s3, Squash) else s3;
    if a.interactiveRebase then Step(cfg, w, s4, InteractiveRebase) else s4
  }

  /** The tag step: run whenever a tag name was given, whatever the push did. */
  function TagStep(a: Arguments, cfg: Config, w: World, s: Run): Run {
    if Truthy(a.tagName) then Step(cfg, w, s, Tag(a.tagName.value)) else s
  }

  function Finish(s: Run): Run {
    match s
    case Done(_, _) => s
    case Running(t, _, _) => Done(t + [Log(Info, CompletedLine)], 0)
  }

  /** The body of `main` after parsing. */
  function Workflow(a: Arguments, cfg: Config, w: World): Run {
    Finish(TagStep(a, cfg, w, PushStep(cfg, w, BeforePush(a, cfg, w))))
  }

  /** `main(args)`: parse, then run the workflow. */
  function Main(argv: seq<string>, cfg: Config, w: World): Run {
    match ParseArguments(argv, cfg)
    case Exit(code, e) => Done([e], code)
    case Parsed(a, c) => Workflow(a, c, w)
  }

  /** The whole script: `detectShellAndConfig()` runs when the module is
      loaded, and an unsupported shell throws out of it before `main`. */
  function Program(shellVar: Option<string>, home: string, argv: seq<string>, cfg: Config, w: World): Run {
    match ShellDetect.DetectShell(shellVar, home)
    case Failure(_) => Done([], 1)
    case Success(_) => Main(argv, cfg, w)
  }
}

=== FILE: run_proofs.dfy ===
/** Properties of `main`: exit statuses and aborts, the tag step's
    independence from the push, the dry-run boundary, and the order in
    which commands are issued. */
module RunProofs {
  import opened Wrappers
  import opened Strings
  import opened AcpConfig
  import opened Events
  import opened Executor
  import opened CommandLine
  import opened AcpRun
  import ShellDetect

  // Failures and exit statuses

  /** A failure that aborts the run: a non-push command or the diff read
      exited non-zero. A failed push attempt is not one. */
  predicate Failed(e: Event) {
    (e.Executed? && !e.ok && e.command != Push) || (e.DiffRead? && !e.ok)
  }

  predicate Clean(t: seq<Event>) {
    forall i :: 0 <= i < |t| ==> !Failed(t[i])
  }

  /** A run in progress has seen no failure; a finished one either saw
      none and has status 0, or has status 1 and ends with exactly one
      failure followed by the error report. */
  predicate Sound(s: Run) {
    match s
    case Running(t, _, _) => Clean(t)
    case Done(t, code) =>
      || (code == 0 && Clean(t))
      || (&& code == 1 && |t| >= 3 && Clean(t[..|t| - 3]) && Failed(t[|t| - 3])
          && t[|t| - 2..] == ErrorReport)
  }

  lemma CleanAppend(a: seq<Event>, b: seq<Event>)
    ensures Clean(a + b) <==> Clean(a) && Clean(b)
  {
    if Clean(a) && Clean(b) {
      forall i | 0 <= i < |a + b| ensures !Failed((a + b)[i]) {
        if i < |a| {
          assert (a + b)[i] == a[i];
        } else {
          assert (a + b)[i] == b[i - |a|];
        }
      }
    }
    if Clean(a + b) {
      forall i | 0 <= i < |a| ensures !Failed(a[i]) {
        assert (a + b)[i] == a[i];
      }
      forall i | 0 <= i < |b| ensures !Failed(b[i]) {
        assert (a + b)[|a| + i] == b[i];
      }
    }
  }

  /** Ending a clean trace with one failure and the error report. */
  lemma AbortIsSound(t: seq<Event>, failure: Event)
    requires Clean(t) && Failed(failure)
    ensures Sound(Done(t + [failure] + ErrorReport, 1))
  {
    var t' := t + [failure] + ErrorReport;
    assert t'[..|t'| - 3] == t;
    assert t'[|t'| - 2..] == ErrorReport;
  }

  lemma StepSound(cfg: Config, w: World, s: Run, cmd: GitCommand)
    requires Sound(s) && cmd != Push
    ensures Sound(Step(cfg, w, s, cmd))
  {
    if s.Running? {
      var x := ExecuteCommand(cmd, cfg.dryRun, w.spawnOk(s.spawned));
      CleanAppend(s.trace, x.events);
      if !x.ok {
        AbortIsSound(s.trace, x.events[0]);
        assert x.events == [x.events[0]];
      }
    }
  }

  lemma DiffStepSound(w: World, s: Run)
    requires Sound(s)
    ensures Sound(DiffStep(w, s))
  {
    if s.Running? {
      var t, k, q := s.trace, s.spawned, s.asked;
      if !w.spawnOk(k) {
        AbortIsSound(t, DiffRead(false));
      } else {
        var t' := t + [DiffRead(true), Log(Info, w.diffText)];
        CleanAppend(t, [DiffRead(true), Log(Info, w.diffText)]);
        if q < |w.answers| {
          CleanAppend(t', [Prompt(DiffQuestion, Some(w.answers[q]))]);
        } else {
          CleanAppend(t', [Prompt(DiffQuestion, None)]);
        }
      }
    }
  }

  lemma PushEventsAreClean(t: seq<Event>)
    requires OnlyPushEvents(t)
    ensures Clean(t)
  {
    forall i | 0 <= i < |t| ensures !Failed(t[i]) {
      assert IsPushEvent(t[i]);
    }
  }

  lemma PushStepSound(cfg: Config, w: World, s: Run)
    requires Sound(s)
    ensures Sound(PushStep(cfg, w, s))
  {
    if s.Running? {
      var t, k, q := s.trace, s.spawned, s.asked;
      if q < |w.answers| {
        var t' := t + [Prompt(PushQuestion, Some(w.answers[q]))];
        CleanAppend(t, [Prompt(PushQuestion, Some(w.answers[q]))]);
        var p := GitPush(cfg.retryAttempts, cfg.dryRun, (j: nat) => w.spawnOk(k + j));
        var failed := if p.pushed then [] else [Log(Error, PushFailedLine(cfg.retryAttempts))];
        PushEventsAreClean(p.events);
        CleanAppend(t', p.events);
        CleanAppend(t' + p.events, failed);
      } else {
        CleanAppend(t, [Prompt(PushQuestion, None)]);
      }
    }
  }

  lemma FinishSound(s: Run)
    requires Sound(s)
    ensures Sound(Finish(s)) && Finish(s).Done?
  {
    if s.Running? {
      CleanAppend(s.trace, [Log(Info, CompletedLine)]);
    }
  }

  lemma BeforePushSound(a: Arguments, cfg: Config, w: World)
    ensures Sound(BeforePush(a, cfg, w))
  {
    var s0 := Running([], 0, 0);
    var s1 := if a.showDiff then DiffStep(w, s0) else s0;
    DiffStepSound(w, s0);
    var s2 := if Truthy(a.newBranch) then Step(cfg, w, s1, Checkout(a.newBranch.value)) else s1;
    if Truthy(a.newBranch) { StepSound(cfg, w, s1, Checkout(a.newBranch.value)); }
    StepSound(cfg, w, s2, Add);
    StepSound(cfg, w, Step(cfg, w, s2, Add), Commit(CommitMessage(a, cfg)));
    var s3 := Step(cfg, w, Step(cfg, w, s2, Add), Commit(CommitMessage(a, cfg)));
    var s4 := if a.squash then Step(cfg, w, s3, Squash) else s3;
    if a.squash { StepSound(cfg, w, s3, Squash); }
    if a.interactiveRebase { StepSound(cfg, w, s4, InteractiveRebase); }
  }

  lemma WorkflowSound(a: Arguments, cfg: Config, w: World)
    ensures Sound(Workflow(a, cfg, w)) && Workflow(a, cfg, w).Done?
  {
    var s5 := BeforePush(a, cfg, w);
    BeforePushSound(a, cfg, w);
    var s6 := PushStep(cfg, w, s5);
    PushStepSound(cfg, w, s5);
    if Truthy(a.tagName) { StepSound(cfg, w, s6, Tag(a.tagName.value)); }
    FinishSound(TagStep(a, cfg, w, s6));
  }

  /** What soundness says about a finished run. */
  predicate Concluded(r: Run) {
    && r.Done?
    && (r.exit == 0 || r.exit == 1)
    && (r.exit == 1 <==> exists i :: 0 <= i < |r.trace| && Failed(r.trace[i]))
    && (forall i :: 0 <= i < |r.trace| && Failed(r.trace[i]) ==> i == |r.trace| - 3)
    && (r.exit == 1 ==> |r.trace| >= 3 && r.trace[|r.trace| - 2..] == ErrorReport)
  }

  lemma SoundConcludes(r: Run)
    requires r.Done? && Sound(r)
    ensures Concluded(r)
  {
    var t := r.trace;
    if r.exit == 1 {
      assert Failed(t[|t| - 3]);
      forall i | 0 <= i < |t| && Failed(t[i]) ensures i == |t| - 3 {
        if i < |t| - 3 {
          assert false;
        }
      }
    }
  }

  /** Every run ends with status 0 or 1. Status 1 means exactly one
      command (other than a push attempt) or the diff read failed; the
      failure is followed only by the two lines of the error report, so
      every later step was skipped. A declined prompt, ended input or an
      exhausted push never yields status 1. */
  lemma WorkflowExitStatus(a: Arguments, cfg: Config, w: World)
    ensures Concluded(Workflow(a, cfg, w))
  {
    WorkflowSound(a, cfg, w);
    SoundConcludes(Workflow(a, cfg, w));
  }

  // The tag step and the push

  predicate IsTagCommand(e: Event) {
    (e.Executed? || e.Simulated?) && e.command.Tag?
  }

  predicate TagIssued(t: seq<Event>) {
    exists i :: 0 <= i < |t| && IsTagCommand(t[i])
  }

  predicate IsPushAnswer(e: Event) {
    e.Prompt? && e.question == PushQuestion && e.answer.Some?
  }

  /** The push prompt was reached and answered, yes or no. */
  predicate PushAnswered(t: seq<Event>) {
    exists i :: 0 <= i < |t| && IsPushAnswer(t[i])
  }

  /** Neither a tag command nor an answered push prompt. */
  predicate Quiet(t: seq<Event>) {
    forall i :: 0 <= i < |t| ==> !IsTagCommand(t[i]) && !IsPushAnswer(t[i])
  }

  lemma QuietAppend(a: seq<Event>, b: seq<Event>)
    ensures Quiet(a + b) <==> Quiet(a) && Quiet(b)
  {
    if Quiet(a) && Quiet(b) {
      forall i | 0 <= i < |a + b| ensures !IsTagCommand((a + b)[i]) && !IsPushAnswer((a + b)[i]) {
        if i < |a| {
          assert (a + b)[i] == a[i];
        } else {
          assert (a + b)[i] == b[i - |a|];
        }
      }
    }
    if Quiet(a + b) {
      forall i | 0 <= i < |a| ensures !IsTagCommand(a[i]) && !IsPushAnswer(a[i]) {
        assert (a + b)[i] == a[i];
      }
      forall i | 0 <= i < |b| ensures !IsTagCommand(b[i]) && !IsPushAnswer(b[i]) {
        assert (a + b)[|a| + i] == b[i];
      }
    }
  }

  lemma StepQuiet(cfg: Config, w: World, s: Run, cmd: GitCommand)
    requires Quiet(s.trace) && !cmd.Tag?
    ensures Quiet(Step(cfg, w, s, cmd).trace)
  {
    if s.Running? {
      var x := ExecuteCommand(cmd, cfg.dryRun, w.spawnOk(s.spawned));
      QuietAppend(s.trace, x.events);
      if !x.ok {
        QuietAppend(s.trace + x.events, ErrorReport);
      }
    }
  }

  lemma DiffStepQuiet(w: World, s: Run)
    requires Quiet(s.trace)
    ensures Quiet(DiffStep(w, s).trace)
  {
    if s.Running? {
      var t, k, q := s.trace, s.spawned, s.asked;
      if !w.spawnOk(k) {
        QuietAppend(t, [DiffRead(false)] + ErrorReport);
      } else {
        var t' := t + [DiffRead(true), Log(Info, w.diffText)];
        QuietAppend(t, [DiffRead(true), Log(Info, w.diffText)]);
        assert DiffQuestion != PushQuestion by {
          assert |DiffQuestion| != |PushQuestion|;
        }
        if q < |w.answers| {
          QuietAppend(t', [Prompt(DiffQuestion, Some(w.answers[q]))]);
        } else {
          QuietAppend(t', [Prompt(DiffQuestion, None)]);
        }
      }
    }
  }

  lemma BeforePushQuiet(a: Arguments, cfg: Config, w: World)
    ensures Quiet(BeforePush(a, cfg, w).trace)
  {
    var s0 := Running([], 0, 0);
    var s1 := if a.showDiff then DiffStep(w, s0) else s0;
    DiffStepQuiet(w, s0);
    var s2 := if Truthy(a.newBranch) then Step(cfg, w, s1, Checkout(a.newBranch.value)) else s1;
    if Truthy(a.newBranch) { StepQuiet(cfg, w, s1, Checkout(a.newBranch.value)); }
    StepQuiet(cfg, w, s2, Add);
    StepQuiet(cfg, w, Step(cfg, w, s2, Add), Commit(CommitMessage(a, cfg)));
    var s3 := Step(cfg, w, Step(cfg, w, s2, Add), Commit(CommitMessage(a, cfg)));
    var s4 := if a.squash then Step(cfg, w, s3, Squash) else s3;
    if a.squash { StepQuiet(cfg, w, s3, Squash); }
    if a.interactiveRebase { StepQuiet(cfg, w, s4, InteractiveRebase); }
  }

  /** After the steps before the push, the push step either stops the run
      (the run had already stopped, or the input ended at the prompt), in
      which case nothing tag- or push-answer-like is in the trace, or it
      records the answered prompt followed only by push events and log
      lines. */
  lemma PushStepShape(cfg: Config, w: World, s: Run)
    requires Quiet(s.trace)
    ensures var s' := PushStep(cfg, w, s);
      && (s'.Done? ==> Quiet(s'.trace))
      && (s'.Running? ==> PushAnswered(s'.trace) && !TagIssued(s'.trace))
  {
    var s' := PushStep(cfg, w, s);
    if s.Running? {
      var t, k, q := s.trace, s.spawned, s.asked;
      if q < |w.answers| {
        var answer := Prompt(PushQuestion, Some(w.answers[q]));
        var t' := t + [answer];
        assert t'[|t|] == answer;
        var p := GitPush(cfg.retryAttempts, cfg.dryRun, (j: nat) => w.spawnOk(k + j));
        var failed := if p.pushed then [] else [Log(Error, PushFailedLine(cfg.retryAttempts))];
        var t'' := t' + p.events + failed;
        if ConfirmAction(w.answers[q]) {
          assert s'.trace == t'';
          assert t''[|t|] == answer;
        } else {
          assert s'.trace == t';
        }
        assert PushAnswered(s'.trace);
        forall i | 0 <= i < |s'.trace| ensures !IsTagCommand(s'.trace[i]) {
          if i < |t| {
            assert s'.trace[i] == t[i];
          } else if i > |t| {
            assert ConfirmAction(w.answers[q]);
            if i < |t'| + |p.events| {
              assert s'.trace[i] == p.events[i - |t'|];
              assert IsPushEvent(p.events[i - |t'|]);
            } else {
              assert s'.trace[i] == failed[i - |t'| - |p.events|];
            }
          }
        }
      } else {
        QuietAppend(t, [Prompt(PushQuestion, None)]);
      }
    }
  }

  lemma AppendKeepsWitnesses(t: seq<Event>, extra: seq<Event>)
    ensures PushAnswered(t) ==> PushAnswered(t + extra)
    ensures TagIssued(t) ==> TagIssued(t + extra)
  {
    if PushAnswered(t) {
      var i :| 0 <= i < |t| && IsPushAnswer(t[i]);
      assert (t + extra)[i] == t[i];
    }
    if TagIssued(t) {
      var i :| 0 <= i < |t| && IsTagCommand(t[i]);
      assert (t + extra)[i] == t[i];
    }
  }

  /** Tagging is not gated on the push: the tag command is issued exactly
      when a tag name was given and the push prompt was answered, whether
      the answer was no, the push succeeded, or every attempt failed. */
  lemma TagNotGatedOnPush(a: Arguments, cfg: Config, w: World)
    ensures var r := Workflow(a, cfg, w);
      TagIssued(r.trace) <==> Truthy(a.tagName) && PushAnswered(r.trace)
  {
    var s5 := BeforePush(a, cfg, w);
    BeforePushQuiet(a, cfg, w);
    var s6 := PushStep(cfg, w, s5);
    PushStepShape(cfg, w, s5);
    var s7 := TagStep(a, cfg, w, s6);
    var r := Finish(s7);
    if s6.Done? {
      assert r == s6;
    } else {
      if Truthy(a.tagName) {
        var cmd := Tag(a.tagName.value);
        var x := ExecuteCommand(cmd, cfg.dryRun, w.spawnOk(s6.spawned));
        var t' := s6.trace + x.events;
        assert t'[|s6.trace|] == x.events[0];
        assert TagIssued(t');
        AppendKeepsWitnesses(s6.trace, x.events);
        assert s7.trace == t' || s7.trace == t' + ErrorReport;
        AppendKeepsWitnesses(t', ErrorReport);
        AppendKeepsWitnesses(s7.trace, [Log(Info, CompletedLine)]);
      } else {
        assert s7 == s6;
        AppendKeepsWitnesses(s6.trace, [Log(Info, CompletedLine)]);
        var t := r.trace;
        forall i | 0 <= i < |t| ensures !IsTagCommand(t[i]) {
          if i < |s6.trace| {
            assert t[i] == s6.trace[i];
          }
        }
      }
    }
  }

  /** The tag step stops a run only by a failing tag command: the run
      then ends with status 1, the failed tag and the error report, and
      the success line is never added. */
  lemma TagStepStopsOnlyOnFailure(a: Arguments, cfg: Config, w: World, s: Run)
    requires s.Running?
    ensures var s' := TagStep(a, cfg, w, s);
      s'.Done? ==>
        && Truthy(a.tagName) && s'.exit == 1
        && s'.trace == s.trace + [Executed(Tag(a.tagName.value), false)] + ErrorReport
        && !Clean(s'.trace)
  {
    var s' := TagStep(a, cfg, w, s);
    if s'.Done? {
      var cmd := Tag(a.tagName.value);
      assert s'.trace[|s.trace|] == Executed(cmd, false);
      assert Failed(s'.trace[|s.trace|]);
    }
  }

  /** Once the push prompt has been answered, nothing but a failing tag
      command can stop the run: a declined or exhausted push still ends
      with the success line and status 0. */
  lemma CompletesAfterPushPrompt(a: Arguments, cfg: Config, w: World)
    ensures var r := Workflow(a, cfg, w);
      PushAnswered(r.trace) && Clean(r.trace) ==>
        r.exit == 0 && r.trace[|r.trace| - 1] == Log(Info, CompletedLine)
  {
    var s5 := BeforePush(a, cfg, w);
    BeforePushQuiet(a, cfg, w);
    BeforePushSound(a, cfg, w);
    var s6 := PushStep(cfg, w, s5);
    PushStepShape(cfg, w, s5);
    PushStepSound(cfg, w, s5);
    var s7 := TagStep(a, cfg, w, s6);
    var r := Finish(s7);
    if s6.Running? {
      TagStepStopsOnlyOnFailure(a, cfg, w, s6);
    }
    if PushAnswered(r.trace) && Clean(r.trace) {
      if s6.Done? {
        assert false;
      }
      if s7.Done? {
        assert false;
      }
    }
  }

  // The diff gate

  /** With `-d`, a failing `git diff` aborts with status 1 and declining
      the confirmation ends the run with status 0; either way no add,
      commit or push is issued. */
  lemma DiffGate(a: Arguments, cfg: Config, w: World)
    requires a.showDiff
    ensures !w.spawnOk(0) ==>
      Workflow(a, cfg, w) == Done([DiffRead(false)] + ErrorReport, 1)
    ensures w.spawnOk(0) && |w.answers| >= 1 && !ConfirmAction(w.answers[0]) ==>
      Workflow(a, cfg, w)
        == Done([DiffRead(true), Log(Info, w.diffText), Prompt(DiffQuestion, Some(w.answers[0]))], 0)
  {
    var s1 := DiffStep(w, Running([], 0, 0));
    if s1.Done? {
      assert BeforePush(a, cfg, w) == s1;
      assert Workflow(a, cfg, w) == s1;
    }
  }

  // The dry-run boundary

  predicate NoCommandSpawned(t: seq<Event>) {
    forall i :: 0 <= i < |t| ==> !t[i].Executed?
  }

  lemma NoCommandSpawnedAppend(a: seq<Event>, b: seq<Event>)
    requires NoCommandSpawned(a) && NoCommandSpawned(b)
    ensures NoCommandSpawned(a + b)
  {
    forall i | 0 <= i < |a + b| ensures !(a + b)[i].Executed? {
      if i < |a| {
        assert (a + b)[i] == a[i];
      } else {
        assert (a + b)[i] == b[i - |a|];
      }
    }
  }

  lemma StepDry(cfg: Config, w: World, s: Run, cmd: GitCommand)
    requires cfg.dryRun && NoCommandSpawned(s.trace)
    ensures Step(cfg, w, s, cmd) == (if s.Running? then Running(s.trace + [Simulated(cmd)], s.spawned, s.asked) else s)
    ensures NoCommandSpawned(Step(cfg, w, s, cmd).trace)
  {
    if s.Running? {
      NoCommandSpawnedAppend(s.trace, [Simulated(cmd)]);
    }
  }

  lemma DiffStepDry(w: World, s: Run)
    requires NoCommandSpawned(s.trace)
    ensures NoCommandSpawned(DiffStep(w, s).trace)
  {
    if s.Running? {
      var t, k, q := s.trace, s.spawned, s.asked;
      if !w.spawnOk(k) {
        NoCommandSpawnedAppend(t, [DiffRead(false)] + ErrorReport);
      } else {
        var t' := t + [DiffRead(true), Log(Info, w.diffText)];
        NoCommandSpawnedAppend(t, [DiffRead(true), Log(Info, w.diffText)]);
        if q < |w.answers| {
          NoCommandSpawnedAppend(t', [Prompt(DiffQuestion, Some(w.answers[q]))]);
        } else {
          NoCommandSpawnedAppend(t', [Prompt(DiffQuestion, None)]);
        }
      }
    }
  }

  lemma PushStepDry(cfg: Config, w: World, s: Run)
    requires cfg.dryRun && NoCommandSpawned(s.trace)
    ensures NoCommandSpawned(PushStep(cfg, w, s).trace)
  {
    if s.Running? {
      var t, k, q := s.trace, s.spawned, s.asked;
      if q < |w.answers| {
        var t' := t + [Prompt(PushQuestion, Some(w.answers[q]))];
        NoCommandSpawnedAppend(t, [Prompt(PushQuestion, Some(w.answers[q]))]);
        var p := GitPush(cfg.retryAttempts, cfg.dryRun, (j: nat) => w.spawnOk(k + j));
        var failed := if p.pushed then [] else [Log(Error, PushFailedLine(cfg.retryAttempts))];
        NoCommandSpawnedAppend(t', p.events);
        NoCommandSpawnedAppend(t' + p.events, failed);
      } else {
        NoCommandSpawnedAppend(t, [Prompt(PushQuestion, None)]);
      }
    }
  }

  /** In dry-run mode no git command is spawned: every command of the run
      is only logged. The read-only `git diff` is the one process that
      still runs. */
  lemma DryRunSpawnsNoCommand(a: Arguments, cfg: Config, w: World)
    requires cfg.dryRun
    ensures NoCommandSpawned(Workflow(a, cfg, w).trace)
  {
    var s5 := BeforePush(a, cfg, w);
    BeforePushDry(a, cfg, w);
    var s6 := PushStep(cfg, w, s5);
    PushStepDry(cfg, w, s5);
    if Truthy(a.tagName) { StepDry(cfg, w, s6, Tag(a.tagName.value)); }
    var s7 := TagStep(a, cfg, w, s6);
    if s7.Running? {
      NoCommandSpawnedAppend(s7.trace, [Log(Info, CompletedLine)]);
    }
  }

  lemma BeforePushDry(a: Arguments, cfg: Config, w: World)
    requires cfg.dryRun
    ensures NoCommandSpawned(BeforePush(a, cfg, w).trace)
  {
    var s0 := Running([], 0, 0);
    var s1 := if a.showDiff then DiffStep(w, s0) else s0;
    DiffStepDry(w, s0);
    var s2 := if Truthy(a.newBranch) then Step(cfg, w, s1, Checkout(a.newBranch.value)) else s1;
    if Truthy(a.newBranch) { StepDry(cfg, w, s1, Checkout(a.newBranch.value)); }
    StepDry(cfg, w, s2, Add);
    StepDry(cfg, w, Step(cfg, w, s2, Add), Commit(CommitMessage(a, cfg)));
    var s3 := Step(cfg, w, Step(cfg, w, s2, Add), Commit(CommitMessage(a, cfg)));
    var s4 := if a.squash then Step(cfg, w, s3, Squash) else s3;
    if a.squash { StepDry(cfg, w, s3, Squash); }
    if a.interactiveRebase { StepDry(cfg, w, s4, InteractiveRebase); }
  }

  /** `-n` anywhere on a well-formed command line reaches every later
      `executeCommand`: no git command is spawned. */
  lemma DryRunFlagHonoured(ws: seq<Written>, cfg: Config, w: World)
    requires Mentions(ws, DryRun)
    ensures NoCommandSpawned(Main(Encode(ws), cfg, w).trace)
  {
    ParseEncoded(ws, cfg);
    DryRunSpawnsNoCommand(Requested(ws), Overridden(cfg, ws), w);
  }

  // Step order

  /** The commands before the push prompt, in order. */
  function PrePushCommands(a: Arguments, cfg: Config): seq<GitCommand> {
    (if Truthy(a.newBranch) then [Checkout(a.newBranch.value)] else [])
    + [Add, Commit(CommitMessage(a, cfg))]
    + (if a.squash then [Squash] else [])
    + (if a.interactiveRebase then [InteractiveRebase] else [])
  }

  /** The step order of `main`, gated by the answers: the commands a run
      issues when every process succeeds. A declined or unanswered diff
      prompt issues nothing; an unanswered push prompt stops after the
      pre-push steps; otherwise the push (when confirmed and at least one
      attempt is allowed) and then the tag follow; the tag does not
      depend on the push answer. */
  function ExpectedCommands(a: Arguments, cfg: Config, answers: seq<string>): seq<GitCommand> {
    var pushAnswer := if a.showDiff then 1 else 0;
    if a.showDiff && !(|answers| >= 1 && ConfirmAction(answers[0])) then []
    else if |answers| <= pushAnswer then PrePushCommands(a, cfg)
    else
      PrePushCommands(a, cfg)
      + (if ConfirmAction(answers[pushAnswer]) && cfg.retryAttempts >= 1 then [Push] else [])
      + (if Truthy(a.tagName) then [Tag(a.tagName.value)] else [])
  }

  ghost predicate AllSucceed(w: World) {
    forall k: nat :: w.spawnOk(k)
  }

  /** The event a command leaves when its process succeeds (or, in
      dry-run mode, when it is only announced). */
  function Issue(c: GitCommand, dryRun: bool): Event {
    if dryRun then Simulated(c) else Executed(c, true)
  }

  function Issued(cs: seq<GitCommand>, dryRun: bool): seq<Event> {
    if cs == [] then [] else [Issue(cs[0], dryRun)] + Issued(cs[1..], dryRun)
  }

  lemma IssuedOne(c: GitCommand, dryRun: bool)
    ensures Issued([c], dryRun) == [Issue(c, dryRun)]
  {
    assert [c][1..] == [];
  }

  lemma {:induction false} IssuedAppend(a: seq<GitCommand>, b: seq<GitCommand>, dryRun: bool)
    ensures Issued(a + b, dryRun) == Issued(a, dryRun) + Issued(b, dryRun)
  {
    if a == [] {
      assert a + b == b;
    } else {
      assert (a + b)[0] == a[0];
      assert (a + b)[1..] == a[1..] + b;
      IssuedAppend(a[1..], b, dryRun);
      IssuedJoinFront(Issue(a[0], dryRun), Issued(a[1..], dryRun), Issued(b, dryRun));
    }
  }

  lemma IssuedJoinFront(x: Event, u: seq<Event>, v: seq<Event>)
    ensures [x] + (u + v) == [x] + u + v
  {
  }

  /** The prompt event for the `q`-th answer, unanswered once the input
      has ended. */
  function Answer(question: string, answers: seq<string>, q: nat): Event {
    Prompt(question, if q < |answers| then Some(answers[q]) else None)
  }

  /** What follows the push prompt when every process succeeds: nothing
      after a no; one push after a yes; only the give-up line when no
      attempt is allowed. */
  function PushedWhenAllSucceed(yes: bool, cfg: Config): seq<Event> {
    if !yes then []
    else if cfg.retryAttempts < 1 then [Log(Error, PushFailedLine(cfg.retryAttempts))]
    else [Issue(Push, cfg.dryRun)]
  }

  /** The events of the diff review when the diff can be read. */
  function DiffReviewed(answers: seq<string>, diffText: string): seq<Event> {
    [DiffRead(true), Log(Info, diffText), Answer(DiffQuestion, answers, 0)]
  }

  /** The whole trace of a run in which every process succeeds, written
      out flat: the diff, its text and the commit prompt when `-d` is
      given; each pre-push command; the push prompt; the push, or the
      give-up line when no attempt is allowed; the tag; the success line.
      A declined diff review, or an input that ends at a prompt, cuts it
      short after that prompt. */
  function ExpectedTrace(a: Arguments, cfg: Config, answers: seq<string>, diffText: string): seq<Event> {
    var diff := if a.showDiff then DiffReviewed(answers, diffText) else [];
    var pushAnswer := if a.showDiff then 1 else 0;
    if a.showDiff && !(|answers| >= 1 && ConfirmAction(answers[0])) then diff
    else
      var pre := diff + Issued(PrePushCommands(a, cfg), cfg.dryRun);
      if |answers| <= pushAnswer then pre + [Prompt(PushQuestion, None)]
      else
        var push := PushedWhenAllSucceed(ConfirmAction(answers[pushAnswer]), cfg);
        var tag := if Truthy(a.tagName) then [Tag(a.tagName.value)] else [];
        pre + [Prompt(PushQuestion, Some(answers[pushAnswer]))] + push
        + Issued(tag, cfg.dryRun) + [Log(Info, CompletedLine)]
  }

  lemma NoCommandsIn(t: seq<Event>)
    requires forall i :: 0 <= i < |t| ==> !t[i].Executed? && !t[i].Simulated?
    ensures Commands(t) == []
  {
    if t != [] {
      NoCommandsIn(t[1..]);
    }
  }

  /** Appending events that issue no command. */
  lemma CommandsUnchanged(t: seq<Event>, extra: seq<Event>)
    requires forall i :: 0 <= i < |extra| ==> !extra[i].Executed? && !extra[i].Simulated?
    ensures Commands(t + extra) == Commands(t)
  {
    NoCommandsIn(extra);
    CommandsAppend(t, extra);
  }

  /** A step whose process succeeds appends its one command event and
      nothing else: no log line in a live run, and the run goes on. */
  lemma StepSucceeds(cfg: Config, w: World, s: Run, cmd: GitCommand)
    requires s.Running? && AllSucceed(w)
    ensures var s' := Step(cfg, w, s, cmd);
      && s' == Running(s.trace + [Issue(cmd, cfg.dryRun)], s.spawned + (if cfg.dryRun then 0 else 1), s.asked)
      && Commands(s'.trace) == Commands(s.trace) + [cmd]
  {
    var x := ExecuteCommand(cmd, cfg.dryRun, w.spawnOk(s.spawned));
    CommandsAppend(s.trace, x.events);
  }

  /** A diff that can be read is logged in full, then the commit prompt
      follows; a yes goes on, anything else ends the run with status 0. */
  lemma DiffStepSucceeds(w: World)
    requires AllSucceed(w)
    ensures var s := DiffStep(w, Running([], 0, 0));
      && s.trace == DiffReviewed(w.answers, w.diffText)
      && Commands(s.trace) == []
      && (if |w.answers| >= 1 && ConfirmAction(w.answers[0]) then s.Running? && s.spawned == 1 && s.asked == 1
          else s.Done? && s.exit == 0)
  {
    var s := DiffStep(w, Running([], 0, 0));
    assert w.spawnOk(0);
    forall i | 0 <= i < |s.trace| ensures !s.trace[i].Executed? && !s.trace[i].Simulated? {
    }
    NoCommandsIn(s.trace);
  }

  lemma IssuedCommands(cs: seq<GitCommand>, dryRun: bool)
    ensures Commands(Issued(cs, dryRun)) == cs
  {
    if cs != [] {
      IssuedCommands(cs[1..], dryRun);
      CommandsCons(Issue(cs[0], dryRun), Issued(cs[1..], dryRun));
    }
  }

  /** A step taken only when `flag` holds. */
  lemma StepIfSucceeds(cfg: Config, w: World, s: Run, flag: bool, cmd: GitCommand)
    requires s.Running? && AllSucceed(w)
    ensures var s' := if flag then Step(cfg, w, s, cmd) else s;
      && s'.Running? && s'.asked == s.asked
      && s'.trace == s.trace + Issued(if flag then [cmd] else [], cfg.dryRun)
  {
    IssuedOne(cmd, cfg.dryRun);
    if flag { StepSucceeds(cfg, w, s, cmd); }
  }

  /** Three runs of issued commands joined into one. */
  lemma IssuedJoin(t: seq<Event>, b: seq<GitCommand>, c: seq<GitCommand>, d: seq<GitCommand>, dryRun: bool)
    ensures t + Issued(b, dryRun) + Issued(c, dryRun) + Issued(d, dryRun) == t + Issued(b + c + d, dryRun)
  {
    IssuedAppend(b, c, dryRun);
    IssuedAppend(b + c, d, dryRun);
    SeqJoin(t, Issued(b, dryRun), Issued(c, dryRun));
    SeqJoin(t, Issued(b + c, dryRun), Issued(d, dryRun));
  }

  lemma SeqJoin(t: seq<Event>, u: seq<Event>, v: seq<Event>)
    ensures t + u + v == t + (u + v)
  {
  }

  /** The branch, add and commit steps (`performCommit` and the checkout
      before it). */
  lemma BranchAddCommitSucceed(a: Arguments, cfg: Config, w: World, s1: Run)
    requires s1.Running? && AllSucceed(w)
    ensures var s2 := if Truthy(a.newBranch) then Step(cfg, w, s1, Checkout(a.newBranch.value)) else s1;
      var s3 := Step(cfg, w, Step(cfg, w, s2, Add), Commit(CommitMessage(a, cfg)));
      var b := if Truthy(a.newBranch) then [Checkout(a.newBranch.value)] else [];
      && s3.Running? && s3.asked == s1.asked
      && s3.trace == s1.trace + Issued(b + [Add, Commit(CommitMessage(a, cfg))], cfg.dryRun)
  {
    var c := Commit(CommitMessage(a, cfg));
    var br := Checkout(if Truthy(a.newBranch) then a.newBranch.value else "");
    var s2 := if Truthy(a.newBranch) then Step(cfg, w, s1, br) else s1;
    StepIfSucceeds(cfg, w, s1, Truthy(a.newBranch), br);
    var s2a := Step(cfg, w, s2, Add);
    StepIfSucceeds(cfg, w, s2, true, Add);
    StepIfSucceeds(cfg, w, s2a, true, c);
    var b := if Truthy(a.newBranch) then [br] else [];
    IssuedJoin(s1.trace, b, [Add], [c], cfg.dryRun);
    assert b + [Add] + [c] == b + [Add, c];
  }

  /** The branch, add, commit, squash and rebase steps, once the diff
      review (if any) has let the run go on: each leaves its one command
      event and nothing else. */
  lemma PrePushStepsSucceed(a: Arguments, cfg: Config, w: World, s1: Run)
    requires s1.Running? && AllSucceed(w) && Commands(s1.trace) == []
    ensures var s2 := if Truthy(a.newBranch) then Step(cfg, w, s1, Checkout(a.newBranch.value)) else s1;
      var s3 := Step(cfg, w, Step(cfg, w, s2, Add), Commit(CommitMessage(a, cfg)));
      var s4 := if a.squash then Step(cfg, w, s3, Squash) else s3;
      var s5 := if a.interactiveRebase then Step(cfg, w, s4, InteractiveRebase) else s4;
      && s5.Running? && s5.asked == s1.asked && Commands(s5.trace) == PrePushCommands(a, cfg)
      && s5.trace == s1.trace + Issued(PrePushCommands(a, cfg), cfg.dryRun)
  {
    var d := cfg.dryRun;
    var s2 := if Truthy(a.newBranch) then Step(cfg, w, s1, Checkout(a.newBranch.value)) else s1;
    var s3 := Step(cfg, w, Step(cfg, w, s2, Add), Commit(CommitMessage(a, cfg)));
    BranchAddCommitSucceed(a, cfg, w, s1);
    var b := if Truthy(a.newBranch) then [Checkout(a.newBranch.value)] else [];
    var bac := b + [Add, Commit(CommitMessage(a, cfg))];
    var s4 := if a.squash then Step(cfg, w, s3, Squash) else s3;
    StepIfSucceeds(cfg, w, s3, a.squash, Squash);
    StepIfSucceeds(cfg, w, s4, a.interactiveRebase, InteractiveRebase);
    var sq := if a.squash then [Squash] else [];
    var rb := if a.interactiveRebase then [InteractiveRebase] else [];
    IssuedJoin(s1.trace, bac, sq, rb, d);
    var pre := PrePushCommands(a, cfg);
    CommandsAppend(s1.trace, Issued(pre, d));
    IssuedCommands(pre, d);
  }

  lemma BeforePushSucceeds(a: Arguments, cfg: Config, w: World)
    requires AllSucceed(w)
    ensures var s5 := BeforePush(a, cfg, w);
      var diff := if a.showDiff then DiffReviewed(w.answers, w.diffText) else [];
      if a.showDiff && !(|w.answers| >= 1 && ConfirmAction(w.answers[0])) then
        s5 == Done(diff, 0) && Commands(s5.trace) == []
      else
        && s5.Running?
        && s5.asked == (if a.showDiff then 1 else 0)
        && Commands(s5.trace) == PrePushCommands(a, cfg)
        && s5.trace == diff + Issued(PrePushCommands(a, cfg), cfg.dryRun)
  {
    var s0 := Running([], 0, 0);
    var s1 := if a.showDiff then DiffStep(w, s0) else s0;
    DiffStepSucceeds(w);
    if s1.Running? {
      PrePushStepsSucceed(a, cfg, w, s1);
    }
  }

  lemma PushStepSucceeds(cfg: Config, w: World, s: Run)
    requires s.Running? && AllSucceed(w)
    ensures var s' := PushStep(cfg, w, s);
      if s.asked >= |w.answers| then
        s' == Done(s.trace + [Prompt(PushQuestion, None)], 0) && Commands(s'.trace) == Commands(s.trace)
      else
        && s'.Running?
        && s'.asked == s.asked + 1
        && s'.trace == s.trace + [Prompt(PushQuestion, Some(w.answers[s.asked]))]
             + PushedWhenAllSucceed(ConfirmAction(w.answers[s.asked]), cfg)
        && Commands(s'.trace) == Commands(s.trace)
             + (if ConfirmAction(w.answers[s.asked]) && cfg.retryAttempts >= 1 then [Push] else [])
  {
    var t, k, q := s.trace, s.spawned, s.asked;
    if q < |w.answers| {
      var t' := t + [Prompt(PushQuestion, Some(w.answers[q]))];
      CommandsUnchanged(t, [Prompt(PushQuestion, Some(w.answers[q]))]);
      if ConfirmAction(w.answers[q]) {
        var ok := (j: nat) => w.spawnOk(k + j);
        var p := GitPush(cfg.retryAttempts, cfg.dryRun, ok);
        var failed := if p.pushed then [] else [Log(Error, PushFailedLine(cfg.retryAttempts))];
        if cfg.retryAttempts >= 1 && !cfg.dryRun {
          assert ok(0);
          GitPushFirstSuccess(cfg.retryAttempts, 1, ok);
          assert Pushes(1) == [Push];
        }
        CommandsAppend(t', p.events);
        CommandsUnchanged(t' + p.events, failed);
      }
    } else {
      CommandsUnchanged(t, [Prompt(PushQuestion, None)]);
    }
  }

  /** When every process succeeds, the run ends with status 0 and issues
      exactly the expected commands, in order, in either mode. */
  lemma AllSucceedIssuesExpected(a: Arguments, cfg: Config, w: World)
    requires AllSucceed(w)
    ensures var r := Workflow(a, cfg, w);
      r.exit == 0 && Commands(r.trace) == ExpectedCommands(a, cfg, w.answers)
  {
    var s5 := BeforePush(a, cfg, w);
    BeforePushSucceeds(a, cfg, w);
    var r := Workflow(a, cfg, w);
    if s5.Done? {
      assert r == s5;
    } else {
      var s6 := PushStep(cfg, w, s5);
      PushStepSucceeds(cfg, w, s5);
      if s6.Done? {
        assert r == s6;
      } else {
        var s7 := TagStep(a, cfg, w, s6);
        if Truthy(a.tagName) { StepSucceeds(cfg, w, s6, Tag(a.tagName.value)); }
        assert s7.Running?;
        CommandsUnchanged(s7.trace, [Log(Info, CompletedLine)]);
        var pre := PrePushCommands(a, cfg);
        var push := if ConfirmAction(w.answers[s5.asked]) && cfg.retryAttempts >= 1 then [Push] else [];
        var tag := if Truthy(a.tagName) then [Tag(a.tagName.value)] else [];
        assert Commands(r.trace) == pre + push + tag;
      }
    }
  }

  /** When every process succeeds, the run ends with status 0 and its
      whole trace (every command event, prompt and log line) is the one
      written out flat by `ExpectedTrace`. */
  lemma AllSucceedTrace(a: Arguments, cfg: Config, w: World)
    requires AllSucceed(w)
    ensures Workflow(a, cfg, w) == Done(ExpectedTrace(a, cfg, w.answers, w.diffText), 0)
  {
    var s5 := BeforePush(a, cfg, w);
    BeforePushSucceeds(a, cfg, w);
    if s5.Running? {
      var s6 := PushStep(cfg, w, s5);
      PushStepSucceeds(cfg, w, s5);
      if s6.Running? {
        var tag := if Truthy(a.tagName) then [Tag(a.tagName.value)] else [];
        var s7 := TagStep(a, cfg, w, s6);
        StepIfSucceeds(cfg, w, s6, Truthy(a.tagName), Tag(if Truthy(a.tagName) then a.tagName.value else ""));
        assert s7.trace == s6.trace + Issued(tag, cfg.dryRun);
      }
    }
  }

  /** The dry-run log lists exactly the commands a real run executes when
      every process succeeds, and both runs end with the same status. */
  lemma DryRunMatchesRealRun(a: Arguments, cfg: Config, w: World)
    requires AllSucceed(w)
    ensures var dry := Workflow(a, cfg.(dryRun := true), w);
      var live := Workflow(a, cfg.(dryRun := false), w);
      Commands(dry.trace) == Commands(live.trace) && dry.exit == live.exit
  {
    var dryCfg, liveCfg := cfg.(dryRun := true), cfg.(dryRun := false);
    AllSucceedIssuesExpected(a, dryCfg, w);
    AllSucceedIssuesExpected(a, liveCfg, w);
    assert CommitMessage(a, dryCfg) == CommitMessage(a, liveCfg);
    assert PrePushCommands(a, dryCfg) == PrePushCommands(a, liveCfg);
  }

  /** With every prompt confirmed and every process succeeding, the order
      is branch, add, commit, squash, interactive rebase, push, tag, each
      optional step present exactly when its flag or name is truthy; the
      commit message falls back to the configured default. */
  lemma StepOrder(a: Arguments, cfg: Config, w: World)
    requires AllSucceed(w)
    requires |w.answers| >= (if a.showDiff then 2 else 1)
    requires forall i :: 0 <= i < |w.answers| ==> ConfirmAction(w.answers[i])
    ensures var r := Workflow(a, cfg, w);
      && r.exit == 0
      && Commands(r.trace) ==
        (if Truthy(a.newBranch) then [Checkout(a.newBranch.value)] else [])
        + [Add, Commit(if Truthy(a.commitMsg) then a.commitMsg.value else cfg.defaultCommitMsg)]
        + (if a.squash then [Squash] else [])
        + (if a.interactiveRebase then [InteractiveRebase] else [])
        + (if cfg.retryAttempts >= 1 then [Push] else [])
        + (if Truthy(a.tagName) then [Tag(a.tagName.value)] else [])
  {
    AllSucceedIssuesExpected(a, cfg, w);
    assert ConfirmAction(w.answers[0]);
    if a.showDiff { assert ConfirmAction(w.answers[1]); }
  }

  // The script as a whole

  /** Every run of `main` ends with status 0 or 1; status 1 exactly when a
      command (other than a push attempt) or the diff failed, or parsing
      rejected an option, and then an error is the last thing logged. */
  lemma MainExitStatus(argv: seq<string>, cfg: Config, w: World)
    ensures var r := Main(argv, cfg, w);
      && r.Done? && (r.exit == 0 || r.exit == 1)
      && (r.exit == 1 <==>
            || (exists i :: 0 <= i < |r.trace| && Failed(r.trace[i]))
            || (ParseArguments(argv, cfg).Exit? && ParseArguments(argv, cfg).code == 1))
      && (r.exit == 1 ==> |r.trace| >= 1 && r.trace[|r.trace| - 1].Log? && r.trace[|r.trace| - 1].level == Error)
  {
    match ParseArguments(argv, cfg)
    case Exit(code, e) =>
      assert !Failed(e);
    case Parsed(a, c) =>
      assert Main(argv, cfg, w) == Workflow(a, c, w);
      WorkflowSound(a, c, w);
      WorkflowExitStatus(a, c, w);
  }

  /** An unrecognised option aborts before any git command: only the error
      line is logged and the status is 1, whatever came before it. */
  lemma UnknownOptionAbortsBeforeGit(ws: seq<Written>, token: string, rest: seq<string>, cfg: Config, w: World)
    requires token !in Aliases
    ensures Main(Encode(ws) + [token] + rest, cfg, w) == Done([Log(Error, "Unknown option: " + token)], 1)
  {
    ParseStopsAt(ws, token, rest, cfg);
  }

  /** `-h` / `--help` prints the usage line and exits 0 without touching git. */
  lemma HelpExitsBeforeGit(ws: seq<Written>, token: string, rest: seq<string>, cfg: Config, w: World)
    requires Classify(token) == HelpOption
    ensures Main(Encode(ws) + [token] + rest, cfg, w) == Done([Log(Info, UsageLine)], 0)
  {
    assert token in Aliases;
    ParseStopsAt(ws, token, rest, cfg);
  }

  /** A finished run has left at least one event behind. */
  predicate LeftTrace(s: Run) {
    s.Done? ==> |s.trace| >= 1
  }

  lemma StepLeavesTrace(cfg: Config, w: World, s: Run, cmd: GitCommand)
    requires LeftTrace(s)
    ensures LeftTrace(Step(cfg, w, s, cmd))
  {
  }

  lemma DiffStepLeavesTrace(w: World, s: Run)
    requires LeftTrace(s)
    ensures LeftTrace(DiffStep(w, s))
  {
  }

  lemma PushStepLeavesTrace(cfg: Config, w: World, s: Run)
    requires LeftTrace(s)
    ensures LeftTrace(PushStep(cfg, w, s))
  {
  }

  lemma BeforePushLeavesTrace(a: Arguments, cfg: Config, w: World)
    ensures LeftTrace(BeforePush(a, cfg, w))
  {
    var s0 := Running([], 0, 0);
    var s1 := if a.showDiff then DiffStep(w, s0) else s0;
    DiffStepLeavesTrace(w, s0);
    var s2 := if Truthy(a.newBranch) then Step(cfg, w, s1, Checkout(a.newBranch.value)) else s1;
    StepLeavesTrace(cfg, w, s1, Checkout(if Truthy(a.newBranch) then a.newBranch.value else ""));
    StepLeavesTrace(cfg, w, s2, Add);
    var s2a := Step(cfg, w, s2, Add);
    StepLeavesTrace(cfg, w, s2a, Commit(CommitMessage(a, cfg)));
    var s3 := Step(cfg, w, s2a, Commit(CommitMessage(a, cfg)));
    StepLeavesTrace(cfg, w, s3, Squash);
    var s4 := if a.squash then Step(cfg, w, s3, Squash) else s3;
    StepLeavesTrace(cfg, w, s4, InteractiveRebase);
  }

  /** A workflow run always leaves something in its trace. */
  lemma WorkflowTraceNonEmpty(a: Arguments, cfg: Config, w: World)
    ensures |Workflow(a, cfg, w).trace| >= 1
  {
    var s5 := BeforePush(a, cfg, w);
    BeforePushLeavesTrace(a, cfg, w);
    var s6 := PushStep(cfg, w, s5);
    PushStepLeavesTrace(cfg, w, s5);
    if Truthy(a.tagName) {
      StepLeavesTrace(cfg, w, s6, Tag(a.tagName.value));
    }
  }

  /** Shell detection runs before `main`: an unrecognised `SHELL` ends the
      script with status 1 before anything is parsed, logged or spawned,
      and that silent failure happens for no other reason. */
  lemma UnsupportedShellAbortsFirst(shellVar: Option<string>, home: string, argv: seq<string>, cfg: Config, w: World)
    ensures Program(shellVar, home, argv, cfg, w) == Done([], 1)
        <==> !ShellDetect.Recognised(ShellDetect.ShellValue(shellVar))
  {
    match ParseArguments(argv, cfg)
    case Exit(_, _) =>
    case Parsed(a, c) => WorkflowTraceNonEmpty(a, c, w);
  }

  // A push that gives up

  /** A confirmed push whose loop reports failure adds "Failed to push
      after N attempts" after the loop's own events, and the run goes on. */
  /** A declined push prompt adds only the answered prompt: no push, no
      log line, and the run goes on. */
  lemma PushStepDeclined(cfg: Config, w: World, s: Run)
    requires s.Running? && s.asked < |w.answers| && !ConfirmAction(w.answers[s.asked])
    ensures PushStep(cfg, w, s)
      == Running(s.trace + [Prompt(PushQuestion, Some(w.answers[s.asked]))], s.spawned, s.asked + 1)
  {
  }

  /** A confirmed push that succeeds adds the answered prompt and the push
      loop's own events, and no failure line. */
  lemma PushStepPushed(cfg: Config, w: World, s: Run)
    requires s.Running? && s.asked < |w.answers| && ConfirmAction(w.answers[s.asked])
    requires GitPush(cfg.retryAttempts, cfg.dryRun, (j: nat) => w.spawnOk(s.spawned + j)).pushed
    ensures var p := GitPush(cfg.retryAttempts, cfg.dryRun, (j: nat) => w.spawnOk(s.spawned + j));
      var s' := PushStep(cfg, w, s);
      && s'.Running? && s'.asked == s.asked + 1
      && s'.trace == s.trace + [Prompt(PushQuestion, Some(w.answers[s.asked]))] + p.events
      && s'.spawned == s.spawned + (if cfg.dryRun then 0 else |Commands(p.events)|)
  {
  }

  lemma PushStepReportsFailure(cfg: Config, w: World, s: Run)
    requires s.Running? && s.asked < |w.answers| && ConfirmAction(w.answers[s.asked])
    requires !GitPush(cfg.retryAttempts, cfg.dryRun, (j: nat) => w.spawnOk(s.spawned + j)).pushed
    ensures var p := GitPush(cfg.retryAttempts, cfg.dryRun, (j: nat) => w.spawnOk(s.spawned + j));
      PushStep(cfg, w, s) == Running(
        s.trace + [Prompt(PushQuestion, Some(w.answers[s.asked]))] + p.events
          + [Log(Error, PushFailedLine(cfg.retryAttempts))],
        s.spawned + (if cfg.dryRun then 0 else |Commands(p.events)|),
        s.asked + 1)
  {
  }

  /** The events of three failed attempts out of three. */
  const ThreeFailedAttempts: seq<Event> := [
    Executed(Push, false), Log(Error, "Push failed, retrying (1/3)..."),
    Executed(Push, false), Log(Error, "Push failed, retrying (2/3)..."),
    Executed(Push, false), Log(Error, "Push failed, retrying (3/3)...")]

  lemma ThreeFailures()
    ensures Failures(1, 4, 3) == ThreeFailedAttempts
    ensures Commands(ThreeFailedAttempts) == [Push, Push, Push]
  {
    ThreeRetryLines();
    assert Failures(4, 4, 3) == [];
    assert Failures(3, 4, 3) == [Executed(Push, false), Log(Error, RetryLine(3, 3))];
    assert Failures(2, 4, 3) == [Executed(Push, false), Log(Error, RetryLine(2, 3))] + Failures(3, 4, 3);
    assert Failures(1, 4, 3) == [Executed(Push, false), Log(Error, RetryLine(1, 3))] + Failures(2, 4, 3);
    FailuresObserved(1, 4, 3);
    assert Pushes(3) == [Push, Push, Push];
  }

  /** With three attempts allowed and every push failing, a confirmed push
      logs the three retry lines and then the failure line, and the run
      still issues the tag (when one was given) and completes with the
      success line and status 0. */
  lemma ExhaustedPushStillCompletes(a: Arguments, cfg: Config, w: World)
    requires !cfg.dryRun && cfg.retryAttempts == 3
    requires var s := BeforePush(a, cfg, w);
      && s.Running? && s.asked < |w.answers| && ConfirmAction(w.answers[s.asked])
      && !w.spawnOk(s.spawned) && !w.spawnOk(s.spawned + 1) && !w.spawnOk(s.spawned + 2)
      && (Truthy(a.tagName) ==> w.spawnOk(s.spawned + 3))
    ensures var s := BeforePush(a, cfg, w);
      Workflow(a, cfg, w) == Done(
        s.trace + ExhaustedPushEvents(w.answers[s.asked])
          + (if Truthy(a.tagName) then [Executed(Tag(a.tagName.value), true)] else [])
          + [Log(Info, CompletedLine)],
        0)
  {
    ExhaustedPushThenCompletes(a, cfg, w, BeforePush(a, cfg, w));
  }

  /** The events a confirmed push leaves when all three attempts fail. */
  function ExhaustedPushEvents(answer: string): seq<Event> {
    [Prompt(PushQuestion, Some(answer))] + ThreeFailedAttempts
      + [Log(Error, "Failed to push after 3 attempts")]
  }

  /** The steps from the push prompt on, from any run still in progress. */
  lemma ExhaustedPushThenCompletes(a: Arguments, cfg: Config, w: World, s: Run)
    requires !cfg.dryRun && cfg.retryAttempts == 3
    requires && s.Running? && s.asked < |w.answers| && ConfirmAction(w.answers[s.asked])
      && !w.spawnOk(s.spawned) && !w.spawnOk(s.spawned + 1) && !w.spawnOk(s.spawned + 2)
      && (Truthy(a.tagName) ==> w.spawnOk(s.spawned + 3))
    ensures Finish(TagStep(a, cfg, w, PushStep(cfg, w, s))) == Done(
        s.trace + ExhaustedPushEvents(w.answers[s.asked])
          + (if Truthy(a.tagName) then [Executed(Tag(a.tagName.value), true)] else [])
          + [Log(Info, CompletedLine)],
        0)
  {
    ExhaustedPushStep(cfg, w, s);
    var t6 := s.trace + ExhaustedPushEvents(w.answers[s.asked]);
    TagThenFinish(a, cfg, w, Running(t6, s.spawned + 3, s.asked + 1));
  }

  lemma ExhaustedPushStep(cfg: Config, w: World, s: Run)
    requires !cfg.dryRun && cfg.retryAttempts == 3
    requires && s.Running? && s.asked < |w.answers| && ConfirmAction(w.answers[s.asked])
      && !w.spawnOk(s.spawned) && !w.spawnOk(s.spawned + 1) && !w.spawnOk(s.spawned + 2)
    ensures PushStep(cfg, w, s)
      == Running(s.trace + ExhaustedPushEvents(w.answers[s.asked]), s.spawned + 3, s.asked + 1)
  {
    var n := cfg.retryAttempts;
    ThreeFailedPushes(n, (j: nat) => w.spawnOk(s.spawned + j));
    PushStepReportsFailure(cfg, w, s);
    ExhaustedEventsJoin(s.trace, w.answers[s.asked], PushFailedLine(n));
  }

  lemma ExhaustedEventsJoin(t: seq<Event>, answer: string, line: string)
    requires line == "Failed to push after 3 attempts"
    ensures t + [Prompt(PushQuestion, Some(answer))] + ThreeFailedAttempts + [Log(Error, line)]
      == t + ExhaustedPushEvents(answer)
  {
  }

  /** Three attempts out of three that all fail, as the push loop sees them. */
  lemma ThreeFailedPushes(n: int, attemptOk: nat -> bool)
    requires n == 3
    requires !attemptOk(0) && !attemptOk(1) && !attemptOk(2)
    ensures GitPush(n, false, attemptOk) == PushOutcome(ThreeFailedAttempts, false)
    ensures |Commands(ThreeFailedAttempts)| == 3
    ensures PushFailedLine(n) == "Failed to push after 3 attempts"
  {
    PushFromExhaustedEvents(1, 3, attemptOk);
    ThreeFailures();
    SmallDecimals();
  }

  /** When the tag command (if any) succeeds, the tag step issues the tag
      when one was given, and the run completes with status 0. */
  lemma TagThenFinish(a: Arguments, cfg: Config, w: World, s: Run)
    requires s.Running? && !cfg.dryRun && (Truthy(a.tagName) ==> w.spawnOk(s.spawned))
    ensures Finish(TagStep(a, cfg, w, s)) == Done(
        s.trace + (if Truthy(a.tagName) then [Executed(Tag(a.tagName.value), true)] else [])
          + [Log(Info, CompletedLine)],
        0)
  {
  }

  // The shipped defaults

  /** With the default configuration a push that keeps failing is tried
      three times, each failure logs its retry line, and the final message
      names the three attempts. */
  lemma DefaultPushGivesUpAfterThree(attemptOk: nat -> bool)
    requires !attemptOk(0) && !attemptOk(1) && !attemptOk(2)
    ensures var n := LoadConfig().retryAttempts;
      var p := GitPush(n, false, attemptOk);
      && !p.pushed
      && Commands(p.events) == [Push, Push, Push]
      && LogLines(p.events) == [
           "Push failed, retrying (1/3)...",
           "Push failed, retrying (2/3)...",
           "Push failed, retrying (3/3)..."]
      && PushFailedLine(n) == "Failed to push after 3 attempts"
  {
    GitPushExhausted(3, attemptOk);
    assert Pushes(3) == [Push, Push, Push];
    ThreeRetryLines();
    SmallDecimals();
  }

  lemma SmallDecimals()
    ensures Decimal(1) == "1" && Decimal(2) == "2" && Decimal(3) == "3"
  {
    assert DigitChar(1) == '1' && DigitChar(2) == '2' && DigitChar(3) == '3';
  }

  lemma ThreeRetryLines()
    ensures RetryLine(1, 3) == "Push failed, retrying (1/3)..."
    ensures RetryLine(2, 3) == "Push failed, retrying (2/3)..."
    ensures RetryLine(3, 3) == "Push failed, retrying (3/3)..."
    ensures RetryLines(1, 3, 3) == [
      "Push failed, retrying (1/3)...",
      "Push failed, retrying (2/3)...",
      "Push failed, retrying (3/3)..."]
  {
    SmallDecimals();
    assert RetryLine(1, 3) == "Push failed, retrying (1/3)...";
    assert RetryLine(2, 3) == "Push failed, retrying (2/3)...";
    assert RetryLine(3, 3) == "Push failed, retrying (3/3)...";
    assert RetryLines(1, 3, 3) == [RetryLine(1, 3), RetryLine(2, 3), RetryLine(3, 3)];
  }
}

=== FILE: shell_detect.dfy ===
/** `detectShellAndConfig` (src/common/shell_detect.ts): classifies the
    `SHELL` variable by its last path segment and derives where that shell
    keeps its configuration. The home directory and the variable are
    parameters; creating the directory and logging the result are not
    modelled. */
module ShellDetect {
  import opened Wrappers
  import opened Strings

  datatype ShellConfig = ShellConfig(
    currentShell: string,
    configDir: string,
    rcFile: string,
    profileFile: string)

  /** The eight shells the switch recognises, in the order it tests them. */
  const Supported: seq<string> := ["bash", "zsh", "fish", "ksh", "tcsh", "csh", "ash", "dash"]

  /** `path.join(dir, name)` for a clean absolute directory. */
  function Join(dir: string, name: string): string {
    dir + "/" + name
  }

  /** `process.env.SHELL || ''`. */
  function ShellValue(shellVar: Option<string>): string {
    shellVar.GetOr("")
  }

  /** `shell.endsWith('/' + name)`: `name` is the last path segment. */
  predicate EndsWithName(shell: string, name: string) {
    EndsWith(shell, "/" + name)
  }

  /** True when `shell` names one of the supported shells as its last segment. */
  predicate Recognised(shell: string) {
    exists name :: name in Supported && EndsWithName(shell, name)
  }

  function Entry(name: string, home: string, rc: string, profile: string): ShellConfig {
    ShellConfig(name, Join(Join(home, ".config"), name), rc, profile)
  }

  /** The first-match switch over suffixes; an unmatched value raises
      "Unsupported or unknown shell". */
  function DetectShell(shellVar: Option<string>, home: string): (r: Result<ShellConfig, string>)
    ensures var shell := ShellValue(shellVar);
      r.Success? <==> Recognised(shell)
    ensures var shell := ShellValue(shellVar);
      r.Failure? ==> r.error == "Unsupported or unknown shell: " + shell
    ensures r.Success? ==>
      && r.value.currentShell in Supported
      && EndsWithName(ShellValue(shellVar), r.value.currentShell)
      && r.value.configDir == Join(Join(home, ".config"), r.value.currentShell)
    ensures r.Success? && r.value.currentShell == "bash" ==>
      r.value.rcFile == Join(home, ".bashrc") && r.value.profileFile == Join(home, ".bash_profile")
    ensures r.Success? && r.value.currentShell == "zsh" ==>
      r.value.rcFile == Join(home, ".zshrc") && r.value.profileFile == Join(home, ".zprofile")
    ensures r.Success? && r.value.currentShell == "fish" ==>
      r.value.rcFile == r.value.profileFile == Join(r.value.configDir, "config.fish")
    ensures r.Success? && r.value.currentShell == "ksh" ==>
      r.value.rcFile == Join(home, ".kshrc") && r.value.profileFile == Join(home, ".profile")
    ensures r.Success? && r.value.currentShell == "tcsh" ==>
      r.value.rcFile == Join(home, ".tcshrc") && r.value.profileFile == Join(home, ".login")
    ensures r.Success? && r.value.currentShell == "csh" ==>
      r.value.rcFile == Join(home, ".cshrc") && r.value.profileFile == Join(home, ".login")
    ensures r.Success? && r.value.currentShell in {"ash", "dash"} ==>
      r.value.rcFile == r.value.profileFile == Join(home, ".profile")
  {
    var shell := ShellValue(shellVar);
    if EndsWithName(shell, "bash") then
      Success(Entry("bash", home, Join(home, ".bashrc"), Join(home, ".bash_profile")))
    else if EndsWithName(shell, "zsh") then
      Success(Entry("zsh", home, Join(home, ".zshrc"), Join(home, ".zprofile")))
    else if EndsWithName(shell, "fish") then
      var fishConfig := Join(Join(Join(home, ".config"), "fish"), "config.fish");
      Success(Entry("fish", home, fishConfig, fishConfig))
    else if EndsWithName(shell, "ksh") then
      Success(Entry("ksh", home, Join(home, ".kshrc"), Join(home, ".profile")))
    else if EndsWithName(shell, "tcsh") then
      Success(Entry("tcsh", home, Join(home, ".tcshrc"), Join(home, ".login")))
    else if EndsWithName(shell, "csh") then
      Success(Entry("csh", home, Join(home, ".cshrc"), Join(home, ".login")))
    else if EndsWithName(shell, "ash") || EndsWithName(shell, "dash") then
      var name := if EndsWithName(shell, "ash") then "ash" else "dash";
      Success(Entry(name, home, Join(home, ".profile"), Join(home, ".profile")))
    else
      Failure("Unsupported or unknown shell: " + shell)
  }

  /** When two names end the same path, the longer one carries the
      slash that precedes the shorter one. */
  lemma LongerNameHasSlash(s: string, a: string, b: string)
    requires EndsWithName(s, a) && EndsWithName(s, b)
    requires |a| < |b|
    ensures '/' in b
  {
    var x, y := "/" + a, "/" + b;
    var j := |y| - |x|;
    assert s[|s| - |x|] == x[0] == '/';
    assert s[|s| - |y|..][j] == s[|s| - |x|];
    assert y[j] == b[j - 1];
    assert b[j - 1] in b;
  }

  /** A path that ends in "/" + name contains a slash. */
  lemma NameFollowsSlash(s: string, name: string)
    requires EndsWithName(s, name)
    ensures '/' in s
  {
    assert s[|s| - |name| - 1] == ("/" + name)[0];
  }

  /** Two names without a slash cannot both be the last segment of one
      path unless they are the same name. */
  lemma SlashSuffixUnique(s: string, a: string, b: string)
    requires '/' !in a && '/' !in b
    requires EndsWithName(s, a) && EndsWithName(s, b)
    ensures a == b
  {
    if |a| < |b| {
      LongerNameHasSlash(s, a, b);
      assert false;
    } else if |b| < |a| {
      LongerNameHasSlash(s, b, a);
      assert false;
    } else {
      var x, y := "/" + a, "/" + b;
      assert a == x[1..] == y[1..] == b;
    }
  }

  /** Because at most one supported name can end the path, the order of
      the tests does not matter: the detected shell is the one whose name
      ends `SHELL`, and a `/tcsh` path is never classified as csh. */
  lemma DetectIsOrderIndependent(shellVar: Option<string>, home: string, name: string)
    requires name in Supported
    requires EndsWithName(ShellValue(shellVar), name)
    ensures DetectShell(shellVar, home).Success?
    ensures DetectShell(shellVar, home).value.currentShell == name
  {
    var r := DetectShell(shellVar, home);
    assert Recognised(ShellValue(shellVar));
    SupportedNamesAreSegments(ShellValue(shellVar), r.value.currentShell, name);
  }

  /** Two supported names that both end a path are the same name. */
  lemma SupportedNamesAreSegments(shell: string, found: string, name: string)
    requires found in Supported && name in Supported
    requires EndsWithName(shell, found) && EndsWithName(shell, name)
    ensures found == name
  {
    forall n | n in Supported ensures '/' !in n {
    }
    SlashSuffixUnique(shell, found, name);
  }

  /** A path whose last segment is `segment` is recognised exactly when
      that segment is a supported name. */
  lemma LastSegmentDecides(shell: string, segment: string)
    requires '/' !in segment && EndsWithName(shell, segment)
    ensures Recognised(shell) <==> segment in Supported
  {
    if Recognised(shell) {
      var name :| name in Supported && EndsWithName(shell, name);
      forall n | n in Supported ensures '/' !in n {
      }
      SlashSuffixUnique(shell, name, segment);
    }
  }

  /** The classification is decided by the last path segment alone:
      `/bin/sh` is rejected, `/usr/bin/tcsh` is tcsh and never csh. */
  lemma DetectByLastSegment(dir: string, segment: string, home: string)
    requires '/' !in segment
    ensures var r := DetectShell(Some(dir + "/" + segment), home);
      && (r.Success? <==> segment in Supported)
      && (r.Success? ==> r.value.currentShell == segment)
  {
    var shell := dir + "/" + segment;
    assert shell[|shell| - |"/" + segment|..] == "/" + segment;
    assert EndsWithName(shell, segment);
    LastSegmentDecides(shell, segment);
    if segment in Supported {
      DetectIsOrderIndependent(Some(shell), home, segment);
    }
  }

  /** A `SHELL` without any slash (unset, empty, or a bare `bash`) is
      rejected: every supported name must follow a slash. */
  lemma SlashlessShellIsUnsupported(shellVar: Option<string>, home: string)
    requires '/' !in ShellValue(shellVar)
    ensures DetectShell(shellVar, home) == Failure("Unsupported or unknown shell: " + ShellValue(shellVar))
  {
    var shell := ShellValue(shellVar);
    forall name | name in Supported ensures !EndsWithName(shell, name) {
      if EndsWithName(shell, name) {
        NameFollowsSlash(shell, name);
        assert false;
      }
    }
  }
}

=== FILE: strings.dfy ===
/** String helpers the source gets from the JavaScript runtime:
    `String.prototype.endsWith`, `toLowerCase` and the decimal rendering
    of a number inside a template literal. */
module Strings {

  /** `s.endsWith(suffix)`. */
  predicate EndsWith(s: string, suffix: string) {
    |suffix| <= |s| && s[|s| - |suffix|..] == suffix
  }

  /** Lower-casing of one character, restricted to the ASCII letters. */
  function LowerChar(c: char): char {
    if 'A' <= c <= 'Z' then (c as int + 32) as char else c
  }

  /** `s.toLowerCase()` on ASCII text. */
  function ToLower(s: string): (r: string)
    ensures |r| == |s|
    ensures forall i :: 0 <= i < |s| ==> r[i] == LowerChar(s[i])
  {
    seq(|s|, i requires 0 <= i < |s| => LowerChar(s[i]))
  }

  function DigitChar(d: nat): char
    requires d < 10
  {
    "0123456789"[d]
  }

  function NatDecimal(n: nat): (r: string)
    ensures |r| >= 1
    decreases n
  {
    if n < 10 then [DigitChar(n)] else NatDecimal(n / 10) + [DigitChar(n % 10)]
  }

  /** The text an integer-valued number takes inside a template literal. */
  function Decimal(n: int): string {
    if n < 0 then "-" + NatDecimal(-n) else NatDecimal(n)
  }
}

=== FILE: wrappers.dfy ===
/** Failure-carrying values used across the model: an optional value (a
    TypeScript `undefined` field) and a success-or-error result (a thrown
    `Error`). */
module Wrappers {

  datatype Option<+T> = None | Some(value: T) {

    /** The carried value, or `default` when there is none. */
    function GetOr(default: T): T {
      match this
      case Some(v) => v
      case None => default
    }
  }

  datatype Result<+T, +E> = Success(value: T) | Failure(error: E)
}
